=== FILE: README.md ===
# Weather chart: station loader and chart geometry

A Dafny model of the pure core of the WeatherChart tutorial app. The core has three parts.

- **Station loader.** `Array<WeatherStation>.init()` reads the bundled CSV text line by line and splits each line at its commas. It groups consecutive rows with the same station id into one `WeatherStation`. Station metadata comes from the first row of each run, and each row contributes one `DayInfo` observation to its run's station. Rows before the first non-empty id have no station and are lost (`LeadingBlankRowsLost`), and so are the rows of a dropped `NAME` station (`MeasurementsFollowRows`). The loader drops a station named `NAME` (the header sentinel) when another station follows it; rows of id "" right after it then form a station of id "" (`HeaderThenBlankRun`). The station queries `measurementsInMonth`, `lowTemperatureForYear` and `highTemperatureForYear` are modelled too.
- **Precipitation chart.** `sumPrecipitation` adds up a calendar month's precipitation, with a 0-based month index. The body turns each monthly total into a bar height and a label offset, and names each bar by its month.
- **Temperature chart.** The affine maps from day of year and degrees Fahrenheit to canvas coordinates (`degreeHeight`, `dayWidth`, `dayOffset`, `tempOffset`, `tempLabelOffset`, `offsetFirstOfMonth`), and the layout built from them: one vertical segment per measurement, twelve gridlines and twelve month markers. The chart exists in two versions. The `04-widgets` version draws everything unconditionally. The `05-widgetfamily` version has the `renderDegrees` and `renderMonthNames` switches. The helpers are defined once and both bodies are built from them.

The modules follow the program:

- `Optional`: `Option`, the `?? default` idiom.
- `Calendar`: dates of the reporting year 2018 and their 1-based day of year.
- `Text`: line splitting, comma splitting and the character replacements used on names.
- `Sequences`: short sequences written out element by element, for the worked examples.
- `Stations`: `DayInfo`, `WeatherStation`, decoding of one row, and the station queries.
- `StationParser`: a reference definition of the loader (`LoadStations`, built from maximal runs of equal id) and the loader's own loop (`ParseRows`), which is proved to compute it.
- `PrecipitationChart`, `TemperatureChart`: the two charts.
- `Scenario`: four example rows (a header row, two days of one station, one day of another) carried through the loader and the charts, described by their column values.

`Double` and `CGFloat` are Dafny `real`s, so every arithmetic fact below holds exactly. Number and date parsing are parameters of type `Parsers`: two total functions from a column to an optional value.

A station named `NAME` is dropped only when a later id closes it (WeatherStation.swift:73-78). The last station is appended unchecked (WeatherStation.swift:112-114), so a file holding only a header row yields one station named `NAME`. `SingleRunAlwaysKept` and `LastRunAlwaysEmitted` state this behaviour.

## Model

| member | source | states |
|---|---|---|
| Text.Split | 04-widgets/Starter/WeatherChart/WeatherChart/Models/WeatherStation.swift:71 | `components(separatedBy: ",")`: one more piece than there are separators, and no piece contains the separator |
| Text.JoinSplit | 04-widgets/Starter/WeatherChart/WeatherChart/Models/WeatherStation.swift:71 | joining the pieces with the separator gives back the line, so splitting loses no character |
| Text.SplitJoin | 04-widgets/Starter/WeatherChart/WeatherChart/Models/WeatherStation.swift:71 | splitting pieces that hold no separator, once joined, gives back exactly those pieces |
| Text.Lines | 04-widgets/Starter/WeatherChart/WeatherChart/Models/WeatherStation.swift:70 | `enumerateLines`: no line holds a newline; one line per newline, plus one for an unterminated last line |
| Text.LinesRoundTrip | 04-widgets/Starter/WeatherChart/WeatherChart/Models/WeatherStation.swift:70 | the lines, each followed by a newline, give back the text (with a final newline added when it had none) |
| Text.RemoveAll | 04-widgets/Starter/WeatherChart/WeatherChart/Models/WeatherStation.swift:82 | removing a character leaves none of it, shortens the text by its count, and keeps every other character's count (RemoveAllAppend fixes the order) |
| Text.RemoveAllSingle | 04-widgets/Starter/WeatherChart/WeatherChart/Models/WeatherStation.swift:82 | a single character is removed when it is the one removed and kept otherwise |
| Text.RemoveAllAppend | 04-widgets/Starter/WeatherChart/WeatherChart/Models/WeatherStation.swift:82 | removal distributes over concatenation, so the kept characters stay in their order |
| Text.ReplaceAll | 04-widgets/Starter/WeatherChart/WeatherChart/Models/WeatherStation.swift:83 | replacing a by b keeps the length, leaves no a, adds a's count to b's, and keeps every other character's count |
| Text.ReplaceAllPointwise | 04-widgets/Starter/WeatherChart/WeatherChart/Models/WeatherStation.swift:83 | each position holds b where the input held a, and the input's character elsewhere |
| Stations.CleanNameCounts | 04-widgets/Starter/WeatherChart/WeatherChart/Models/WeatherStation.swift:81-83 | a cleaned name has no `"` and no `;`; it is shorter by the number of quotes; its commas are the old commas plus the semicolons; every other character keeps its count |
| Stations.CleanNameKeepsCleanName | 04-widgets/Starter/WeatherChart/WeatherChart/Models/WeatherStation.swift:81-83 | a name with no quote and no semicolon is left as it is |
| Stations.CleanNameIdempotent | 04-widgets/Starter/WeatherChart/WeatherChart/Models/WeatherStation.swift:81-83 | cleaning a cleaned name changes nothing |
| Stations.Number | 04-widgets/Starter/WeatherChart/WeatherChart/Models/WeatherStation.swift:84-86 | `Double(col) ?? 0`: the parsed value, or 0 when the column does not parse |
| Stations.DateOf | 04-widgets/Starter/WeatherChart/WeatherChart/Models/WeatherStation.swift:98-102 | the parsed date, or 1/1/2018 when the column does not parse |
| Stations.TolerantDefaults | 04-widgets/Starter/WeatherChart/WeatherChart/Models/WeatherStation.swift:98-107 | unparsable high, low, precipitation and snowfall read as 0, and an unparsable date reads as 1/1/2018, so every row yields a record |
| Stations.TruncateTowardZeroBounds | 04-widgets/Starter/WeatherChart/WeatherChart/Models/WeatherStation.swift:86 | `Int(Double)` drops less than one unit and rounds toward zero, for either sign |
| Stations.AltitudeFeetBounds | 04-widgets/Starter/WeatherChart/WeatherChart/Models/WeatherStation.swift:86 | the stored altitude is metres × 3.28084 with its fraction dropped toward zero |
| Stations.AltitudeOfHundredMetres | 04-widgets/Starter/WeatherChart/WeatherChart/Models/WeatherStation.swift:86 | 100 m is stored as 328 ft |
| Stations.InMonth | 04-widgets/Starter/WeatherChart/WeatherChart/Models/WeatherStation.swift:40-44 | a record is in the result exactly when it is one of the input records and its month matches |
| Stations.MeasurementsInMonth | 04-widgets/Starter/WeatherChart/WeatherChart/Models/WeatherStation.swift:40-44 | `measurementsInMonth`: exactly the station's records dated in the month, and never more records than the station has |
| Stations.InMonthAppend | 04-widgets/Starter/WeatherChart/WeatherChart/Models/WeatherStation.swift:40-44 | the filter keeps record order: it distributes over concatenation |
| Stations.InMonthSnoc | 04-widgets/Starter/WeatherChart/WeatherChart/Models/WeatherStation.swift:40-44 | a new record is appended to its own month's filter and to no other |
| Stations.InMonthNone | 04-widgets/Starter/WeatherChart/WeatherChart/Models/WeatherStation.swift:40-44 | a month none of the records falls in has no records |
| Stations.MonthsPartitionRecords | 04-widgets/Starter/WeatherChart/WeatherChart/Models/WeatherStation.swift:40-44 | the twelve month filters together hold every record exactly once (their sizes add up to the number of records) |
| Stations.MinLow | 04-widgets/Starter/WeatherChart/WeatherChart/Models/WeatherStation.swift:47 | the minimum of the lows of a non-empty sequence: at most every low and equal to one of them |
| Stations.MaxHigh | 04-widgets/Starter/WeatherChart/WeatherChart/Models/WeatherStation.swift:51 | the maximum of the highs: at least every high and equal to one of them |
| Stations.LowTemperatureForYear | 04-widgets/Starter/WeatherChart/WeatherChart/Models/WeatherStation.swift:46-48 | the yearly low is at most every record's low and is some record's low; a station without records is excluded by the force-unwrap |
| Stations.HighTemperatureForYear | 04-widgets/Starter/WeatherChart/WeatherChart/Models/WeatherStation.swift:50-52 | the yearly high is at least every record's high and is some record's high |
| Calendar.DayOfYear | 05-widgetfamily/Final/WeatherChart/WeatherChart/Charts/TemperatureChart.swift:82-85 | the 1-based ordinal of the day in the year lies in 1..365; in January it is the day, and in December it is 334 plus the day |
| Calendar.DayOfYearMonotone | 05-widgetfamily/Final/WeatherChart/WeatherChart/Charts/TemperatureChart.swift:82-85 | a date not after another in the same year has an ordinal that is not larger, and equal ordinals mean equal dates |
| Calendar.TableMatchesMonthLengths | 05-widgetfamily/Final/WeatherChart/WeatherChart/Charts/TemperatureChart.swift:98-104 | the first-of-month ordinals (1, 32, 60, …, 335) are one more than the days of the months before, and the year has 365 days |
| Calendar.MonthBoundary | 05-widgetfamily/Final/WeatherChart/WeatherChart/Charts/TemperatureChart.swift:98-104 | each month's first ordinal plus its length is the next month's first ordinal |
| Calendar.FirstOrdinalMonotone | 05-widgetfamily/Final/WeatherChart/WeatherChart/Charts/TemperatureChart.swift:98-104 | a later month starts at least 28 days per month later |
| StationParser.RunsPartition | 04-widgets/Starter/WeatherChart/WeatherChart/Models/WeatherStation.swift:72 | the runs laid end to end are the rows, each run carries one id, and neighbouring runs differ in id |
| StationParser.RunPartitionUnique | 04-widgets/Starter/WeatherChart/WeatherChart/Models/WeatherStation.swift:72 | there is only one such partition, so the runs are determined by the rows |
| StationParser.LastRunIsMaximal | 04-widgets/Starter/WeatherChart/WeatherChart/Models/WeatherStation.swift:72 | the last run is the longest suffix of rows sharing the final row's id |
| StationParser.RunsPrepend | 04-widgets/Starter/WeatherChart/WeatherChart/Models/WeatherStation.swift:72 | a run placed before rows with another id becomes a run of its own |
| StationParser.Records | 04-widgets/Starter/WeatherChart/WeatherChart/Models/WeatherStation.swift:98-109 | one record per row, in row order |
| StationParser.StationsOf | 04-widgets/Starter/WeatherChart/WeatherChart/Models/WeatherStation.swift:72-95 | one station per run, in run order, each made from its own run |
| StationParser.DropHeadersMember | 04-widgets/Starter/WeatherChart/WeatherChart/Models/WeatherStation.swift:73-78 | a station survives the header check exactly when it is not named `NAME` |
| StationParser.StepTracks | 04-widgets/Starter/WeatherChart/WeatherChart/Models/WeatherStation.swift:70-110 | one pass of the closure keeps `stations`, `currentStationID` and `currentStation` in line with the runs of the rows read so far |
| StationParser.StepBeforeFirstStation | 04-widgets/Starter/WeatherChart/WeatherChart/Models/WeatherStation.swift:72-109 | before any station opens, a row of id "" changes nothing, and any other row opens the first station |
| StationParser.StepSameStation | 04-widgets/Starter/WeatherChart/WeatherChart/Models/WeatherStation.swift:109 | a row with the current id only appends its record to the current station |
| StationParser.StepNewStation | 04-widgets/Starter/WeatherChart/WeatherChart/Models/WeatherStation.swift:72-95 | a row with a new id closes the current station (appended unless named `NAME`) and opens a station from this row |
| StationParser.FinishTracks | 04-widgets/Starter/WeatherChart/WeatherChart/Models/WeatherStation.swift:111-116 | appending the station still open, with no name check, completes the reference result |
| StationParser.ParseRows | 04-widgets/Starter/WeatherChart/WeatherChart/Models/WeatherStation.swift:65-116 | the loader's loop over split lines returns exactly the reference result `LoadStations` |
| StationParser.CsvRowsRoundTrip | 04-widgets/Starter/WeatherChart/WeatherChart/Models/WeatherStation.swift:70-71 | the rows joined back at their commas, each followed by a newline, give back the text (with a final newline added when it had none) |
| StationParser.LoadCsv | 04-widgets/Starter/WeatherChart/WeatherChart/Models/WeatherStation.swift:65-116 | the loader on the file's text returns the reference result on the text's rows |
| StationParser.EachStationIsOneRun | 04-widgets/Starter/WeatherChart/WeatherChart/Models/WeatherStation.swift:72-109 | every loaded station comes from one run of equal id: id, name, latitude, longitude and altitude from the run's first row, and one record per row of the run |
| StationParser.EveryStationHasRecords | 04-widgets/Starter/WeatherChart/WeatherChart/Models/WeatherStation.swift:87-109 | no loaded station is without records, so its yearly low and high exist |
| StationParser.OnlyLastMayBeHeader | 04-widgets/Starter/WeatherChart/WeatherChart/Models/WeatherStation.swift:73-78 | every loaded station but the last is named something other than `NAME` |
| StationParser.LastRunAlwaysEmitted | 04-widgets/Starter/WeatherChart/WeatherChart/Models/WeatherStation.swift:112-114 | once any station has opened, the station of the last run is the last station loaded, whatever its name and even when its id is "" |
| StationParser.SingleRunAlwaysKept | 04-widgets/Starter/WeatherChart/WeatherChart/Models/WeatherStation.swift:112-114 | a file holding a single run of non-empty id yields exactly its station, even when it is named `NAME` (a single run of id "" yields nothing, see `HeaderThenBlankRun`) |
| StationParser.HeaderRunDropped | 04-widgets/Starter/WeatherChart/WeatherChart/Models/WeatherStation.swift:73-78 | a run named `NAME` followed by a run of another, non-empty id leaves the load unchanged |
| StationParser.LeadingBlankRowsLost | 04-widgets/Starter/WeatherChart/WeatherChart/Models/WeatherStation.swift:66-72 | rows of id "" before the first station have no station to join and are lost |
| StationParser.HeaderFree | 04-widgets/Starter/WeatherChart/WeatherChart/Models/WeatherStation.swift:73-78 | a run is kept exactly when it is one of the runs and its cleaned name is not `NAME` |
| StationParser.StationsOfHeaderFree | 04-widgets/Starter/WeatherChart/WeatherChart/Models/WeatherStation.swift:73-78 | dropping stations named `NAME` is dropping the runs whose first row is named `NAME` |
| StationParser.EmitIsKeptRuns | 04-widgets/Starter/WeatherChart/WeatherChart/Models/WeatherStation.swift:73-78 | the stations emitted are the stations of the header-free earlier runs plus the last run |
| StationParser.AllMeasurementsOfRuns | 04-widgets/Starter/WeatherChart/WeatherChart/Models/WeatherStation.swift:98-109 | the stations' observations, station after station, are the records of the runs' rows in order |
| StationParser.MeasurementsFollowRows | 04-widgets/Starter/WeatherChart/WeatherChart/Models/WeatherStation.swift:66-116 | the loaded observations, in order, are the records of exactly the rows of the kept runs |
| StationParser.NothingDroppedKeepsEveryRow | 04-widgets/Starter/WeatherChart/WeatherChart/Models/WeatherStation.swift:66-116 | with no leading id "" and no early run named `NAME`, the loaded observations are the records of all the rows, in order |
| StationParser.ReappearingIdNotMerged | 04-widgets/Starter/WeatherChart/WeatherChart/Models/WeatherStation.swift:72-95 | an id that reappears after another id opens a second station with the same id; the two are not merged |
| StationParser.EmitDropsLeadingHeader | 04-widgets/Starter/WeatherChart/WeatherChart/Models/WeatherStation.swift:73-78 | a station named `NAME` in front of at least one other is not emitted |
| PrecipitationChart.TotalPrecipitationAppend | 03-heat-map/WeatherChart/WeatherChart/Charts/PrecipitationChart.swift:42 | the reduction over two sequences laid end to end is the sum of the two reductions |
| PrecipitationChart.TotalPrecipitationNonNegative | 03-heat-map/WeatherChart/WeatherChart/Charts/PrecipitationChart.swift:42 | with no negative amounts, the reduction is not negative |
| PrecipitationChart.EmptyMonthSumsToZero | 03-heat-map/WeatherChart/WeatherChart/Charts/PrecipitationChart.swift:42 | a month without records sums to exactly 0, the reduction's seed |
| PrecipitationChart.SumPrecipitationNonNegative | 03-heat-map/WeatherChart/WeatherChart/Charts/PrecipitationChart.swift:37-43 | with no negative amounts, no monthly sum is negative |
| PrecipitationChart.SumPrecipitationSnoc | 03-heat-map/WeatherChart/WeatherChart/Charts/PrecipitationChart.swift:38-42 | a record of month index i (month i + 1) raises sum i by its precipitation; a record of any other month leaves sum i unchanged |
| PrecipitationChart.MonthlySumsAddUp | 03-heat-map/WeatherChart/WeatherChart/Charts/PrecipitationChart.swift:37-43 | the sums for indices 0 to 11 add up to the total precipitation of all records |
| PrecipitationChart.BarHeight | 03-heat-map/WeatherChart/WeatherChart/Charts/PrecipitationChart.swift:66 | the height divided by the scale 15 is the month's total, and a non-negative total gives a non-negative height |
| PrecipitationChart.LabelOffsetY | 03-heat-map/WeatherChart/WeatherChart/Charts/PrecipitationChart.swift:60 | the label moves by 0 or by 35, and by 0 exactly when the total is below 2.4 |
| PrecipitationChart.LabelOffsetMonotone | 03-heat-map/WeatherChart/WeatherChart/Charts/PrecipitationChart.swift:60 | a larger total never moves its label less |
| PrecipitationChart.BarsShowWholeYear | 03-heat-map/WeatherChart/WeatherChart/Charts/PrecipitationChart.swift:54-67 | the twelve bar heights add up to 15 × the year's precipitation |
| PrecipitationChart.TwoMonthsExample | 03-heat-map/WeatherChart/WeatherChart/Charts/PrecipitationChart.swift:37-43 | two January records of 1.0 and 2.5 and one February record of 3.0 give 3.5 for index 0, 3.0 for index 1 and 0 for index 2 |
| TemperatureChart.DegreeHeight | 05-widgetfamily/Final/WeatherChart/WeatherChart/Charts/TemperatureChart.swift:74-76 | an exact division: the degree height times the range is the height |
| TemperatureChart.DayWidth | 05-widgetfamily/Final/WeatherChart/WeatherChart/Charts/TemperatureChart.swift:78-80 | an exact division: the day width times the count is the width |
| TemperatureChart.DayOffsetMonotone | 05-widgetfamily/Final/WeatherChart/WeatherChart/Charts/TemperatureChart.swift:82-85 | a date not after another in the same year is drawn no further right |
| TemperatureChart.DayOffsetBounds | 05-widgetfamily/Final/WeatherChart/WeatherChart/Charts/TemperatureChart.swift:82-85 | every date is drawn between one and 365 day widths from the left |
| TemperatureChart.DayOffsetEnds | 05-widgetfamily/Final/WeatherChart/WeatherChart/Charts/TemperatureChart.swift:82-85 | January 1 is drawn at one day width (not 0), and December 31 at 365 day widths, by the non-leap 2018 ordinal table |
| TemperatureChart.TempOffset | 05-widgetfamily/Final/WeatherChart/WeatherChart/Charts/TemperatureChart.swift:87-89 | with a positive degree height, the offset is positive exactly above −10 °F |
| TemperatureChart.TempOffsetMonotone | 05-widgetfamily/Final/WeatherChart/WeatherChart/Charts/TemperatureChart.swift:87-89 | with a positive degree height, the offset strictly increases with the temperature |
| TemperatureChart.TemperatureY | 04-widgets/Final/WeatherChart/WeatherChart/Charts/TemperatureChart.swift:98-104 | a temperature t is drawn at y = h·(100 − t)/110, so 100 °F is at the top (0) and −10 °F at the bottom (h) |
| TemperatureChart.TempLabelOffset | 05-widgetfamily/Final/WeatherChart/WeatherChart/Charts/TemperatureChart.swift:91-96 | gridline `line` is drawn at y = h·(10 − line)/11 |
| TemperatureChart.TempLabelOffsetOrder | 05-widgetfamily/Final/WeatherChart/WeatherChart/Charts/TemperatureChart.swift:91-96 | for a positive height, higher lines are strictly higher on the canvas; line 10 is at 0 and line −1 at h |
| TemperatureChart.TempLabelOffsetScales | 04-widgets/Final/WeatherChart/WeatherChart/Charts/TemperatureChart.swift:72-77 | scaling the height by k scales every gridline's y by k |
| TemperatureChart.FreezingLineInside | 04-widgets/Final/WeatherChart/WeatherChart/Charts/TemperatureChart.swift:72-77 | the 0 °F line is at 10h/11, strictly inside the canvas |
| TemperatureChart.OffsetFirstOfMonth | 05-widgetfamily/Final/WeatherChart/WeatherChart/Charts/TemperatureChart.swift:98-104 | the first of a month is drawn at its 2018 ordinal × width/365, strictly inside (0, width) for a positive width |
| TemperatureChart.OffsetFirstOfMonthIncreasing | 05-widgetfamily/Final/WeatherChart/WeatherChart/Charts/TemperatureChart.swift:98-104 | for a positive width, a later month's first day is strictly further right |
| TemperatureChart.OffsetFirstOfMonthEnds | 04-widgets/Final/WeatherChart/WeatherChart/Charts/TemperatureChart.swift:79-85 | January starts at w/365 and December at 335w/365 |
| TemperatureChart.OffsetFirstOfMonthScales | 04-widgets/Final/WeatherChart/WeatherChart/Charts/TemperatureChart.swift:79-85 | scaling the width by k scales every month's offset by k |
| TemperatureChart.DaySegmentShape | 05-widgetfamily/Final/WeatherChart/WeatherChart/Charts/TemperatureChart.swift:117-123 | the segment is vertical; its ends are at h·(100 − low)/110 and h·(100 − high)/110; it spans (high − low)·h/110; on a canvas of non-negative height, with low ≤ high, the high end is not below the low end |
| TemperatureChart.OneEmphasisedGridline | 04-widgets/Final/WeatherChart/WeatherChart/Charts/TemperatureChart.swift:115-131 | exactly one gridline is emphasised, the freezing line, at 10h/11, which lies strictly inside a canvas of positive height |
| TemperatureChart.GridlinesBottomToTop | 04-widgets/Final/WeatherChart/WeatherChart/Charts/TemperatureChart.swift:115-131 | the gridlines run from the bottom edge (line −1 at h) to the top edge (line 10 at 0), each strictly above the one before when the height is positive |
| TemperatureChart.MonthMarkersLayout | 05-widgetfamily/Final/WeatherChart/WeatherChart/Charts/TemperatureChart.swift:182-196 | each marker is a vertical line from the bottom to the top at its month's first-day x, strictly inside the width and strictly increasing by month when the width is positive; its label is 5 day widths to the right and 25 above the bottom |
| TemperatureChart.Body05 | 05-widgetfamily/Final/WeatherChart/WeatherChart/Charts/TemperatureChart.swift:113-142 | one segment per measurement; twelve gridlines exactly when degrees are on, and twelve month markers exactly when month names are on |
| TemperatureChart.Body04 | 04-widgets/Final/WeatherChart/WeatherChart/Charts/TemperatureChart.swift:94-153 | one segment per measurement, twelve gridlines and twelve month markers |
| TemperatureChart.VersionsAgree | 04-widgets/Final/WeatherChart/WeatherChart/Charts/TemperatureChart.swift:94-153 | the 04 chart lays out exactly what the 05 chart lays out when built by its one-argument initialiser, which switches degrees and month names on |
| Scenario.ExampleStations | 04-widgets/Starter/WeatherChart/WeatherChart/Models/WeatherStation.swift:65-116 | the example rows (a header row, two rows of station 001 and one row of station 002) load as two stations: one from the 001 rows and one from the 002 row |
| Scenario.HeaderThenBlankRun | 04-widgets/Starter/WeatherChart/WeatherChart/Models/WeatherStation.swift:72-80 | a `NAME` run followed by rows of id "" loads as one station of id "" holding those rows, although the same rows alone load as nothing |
| Scenario.TrailingBlankRowOpensStation | 04-widgets/Starter/WeatherChart/WeatherChart/Models/WeatherStation.swift:72-80 | a row of id "" after a station closes that station and opens a station of id "", which is emitted last |
| Scenario.SpringfieldRecords | 04-widgets/Starter/WeatherChart/WeatherChart/Models/WeatherStation.swift:81-107 | the Springfield station of the example is at 328 ft, has two records, a yearly low of 20 and high of 40, and 0.5 of January precipitation |
| Scenario.EndToEnd | 04-widgets/Starter/WeatherChart/WeatherChart/Models/WeatherStation.swift:65-116 | the example rows load as stations 001 and 002, with the header dropped; 001 has the altitude, records, yearly low and high, and January total above |

## Left out

- Reading the CSV file from the app bundle (`Bundle.main.url`, `String(contentsOf:)` and their forced unwraps) is I/O. `LoadCsv` starts from the file's text.
- `DateFormatter` and `Double(_:)` are system code. They are the `Parsers` parameter: any total function from a column to an optional value.
- `Calendar.current` is reduced to the 2018 calendar: the day of year comes from a fixed non-leap table, and dates are valid 2018-style dates. Leap days, time zones and other calendars are not modelled.
- `enumerateLines` is modelled with `\n` as the only line terminator. `\r\n` and the other Unicode line separators are not.
- A line with fewer than ten columns traps at the first missing column the loader reads: `cols[1]`…`cols[4]` when the line opens a station (WeatherStation.swift:81-86), otherwise `cols[5]`…`cols[9]` (WeatherStation.swift:101-106). The model requires at least ten columns on every line (the `Row` type, `WellFormedCsv`).
- Floating point is not modelled. `Double` and `CGFloat` are exact reals, so 3.28084 is the exact rational, and `Int(_: Double)` is truncation toward zero with no overflow trap for huge or non-finite values.
- DegreeHeight and DayWidth require a non-zero divisor; `CGFloat` division by 0 would give an infinity. The chart only ever passes 110 and 365.
- The month symbols (`Calendar.current.shortMonthSymbols`) depend on the locale and are a parameter of twelve strings, for both charts. The number formatting `stringToOneDecimal` is not part of this model.
- Drawing is not modelled: colours, gradients, strokes other than the emphasised gridline, fonts, rotation, `GeometryReader`, `ForEach` identity and the preview providers. The model stops at coordinates and labels.
- `StationInfo.swift` and `StationHeader.swift` are tab and map UI and are not part of this model.
- Station ids and names are compared character by character (code point by code point), not by Swift's Unicode canonical equivalence. Two ids that differ only in normalisation, such as a precomposed é and an e followed by a combining accent, open one station in the app and two in the model. The same holds for the `NAME` check.
- Concurrency: the loader's closure runs sequentially, and the model is its sequential fold.

=== FILE: calendar.dfy ===
/**
  Calendar dates as the charts see them: a (year, month, day) triple that is a
  real day of a non-leap year, and the 1-based ordinal of that day in its year.
  The reporting year of the bundled data set is 2018, which is not a leap year.
 */
module Calendar {

  datatype Date = Date(year: int, month: int, day: int)

  const ReportingYear: int := 2018

  /** Length of `month` in a non-leap year. */
  function DaysInMonth(month: int): (n: int)
    requires 1 <= month <= 12
    ensures 28 <= n <= 31
  {
    if month == 2 then 28
    else if month == 4 || month == 6 || month == 9 || month == 11 then 30
    else 31
  }

  predicate Valid(d: Date) {
    1 <= d.month <= 12 && 1 <= d.day <= DaysInMonth(d.month)
  }

  /** The dates a date formatter can produce (leap days are not modelled). */
  type CalendarDate = d: Date | Valid(d) witness Date(2018, 1, 1)

  /** The date the loader substitutes for an unparsable date column: 1/1/2018. */
  const FallbackDate: CalendarDate := Date(ReportingYear, 1, 1)

  /** Fixed 2018 table: ordinal of the first day of each month. */
  function FirstOrdinalOfMonth(month: int): (n: int)
    requires 1 <= month <= 12
  {
    match month
    case 1 => 1
    case 2 => 32
    case 3 => 60
    case 4 => 91
    case 5 => 121
    case 6 => 152
    case 7 => 182
    case 8 => 213
    case 9 => 244
    case 10 => 274
    case 11 => 305
    case _ => 335
  }

  /** Number of days in the months strictly before `month`, by summing month lengths. */
  function DaysBefore(month: int): (n: nat)
    requires 1 <= month <= 13
    decreases month
  {
    if month == 1 then 0 else DaysBefore(month - 1) + DaysInMonth(month - 1)
  }

  /** The fixed table agrees with the month lengths, and the year has 365 days. */
  lemma {:induction false} TableMatchesMonthLengths(month: int)
    requires 1 <= month <= 12
    ensures FirstOrdinalOfMonth(month) == DaysBefore(month) + 1
    ensures DaysBefore(13) == 365
  {
    assert DaysBefore(2) == 31;
    assert DaysBefore(3) == 59;
    assert DaysBefore(4) == 90;
    assert DaysBefore(5) == 120;
    assert DaysBefore(6) == 151;
    assert DaysBefore(7) == 181;
    assert DaysBefore(8) == 212;
    assert DaysBefore(9) == 243;
    assert DaysBefore(10) == 273;
    assert DaysBefore(11) == 304;
    assert DaysBefore(12) == 334;
    assert DaysBefore(13) == 365;
  }

  /** 1-based day of the year (`ordinality(of: .day, in: .year)`). */
  function DayOfYear(d: CalendarDate): (n: int)
    ensures 1 <= n <= 365
    ensures d.month == 1 ==> n == d.day
    ensures d.month == 12 ==> n == 334 + d.day
  {
    FirstOrdinalOfMonth(d.month) + d.day - 1
  }

  /** Chronological order of two dates within one year. */
  predicate SameYearNotAfter(a: Date, b: Date) {
    a.year == b.year && (a.month < b.month || (a.month == b.month && a.day <= b.day))
  }

  /** The last day of a month is followed by the first day of the next. */
  lemma MonthBoundary(month: int)
    requires 1 <= month < 12
    ensures FirstOrdinalOfMonth(month) + DaysInMonth(month) == FirstOrdinalOfMonth(month + 1)
  {
  }

  /** The ordinal of the first of each month grows with the month. */
  lemma {:induction false} FirstOrdinalMonotone(m1: int, m2: int)
    requires 1 <= m1 <= m2 <= 12
    ensures FirstOrdinalOfMonth(m1) + (m2 - m1) * 28 <= FirstOrdinalOfMonth(m2)
    decreases m2 - m1
  {
    if m1 < m2 {
      FirstOrdinalMonotone(m1 + 1, m2);
      MonthBoundary(m1);
    }
  }

  /** Day-of-year respects chronological order within a year, strictly so for distinct days. */
  lemma {:induction false} DayOfYearMonotone(a: CalendarDate, b: CalendarDate)
    requires SameYearNotAfter(a, b)
    ensures DayOfYear(a) <= DayOfYear(b)
    ensures DayOfYear(a) == DayOfYear(b) ==> a == b
  {
    if a.month < b.month {
      MonthBoundary(a.month);
      FirstOrdinalMonotone(a.month + 1, b.month);
    }
  }
}

=== FILE: optional.dfy ===
/** The optional value returned by the lenient parsers of the station loader. */
module Optional {

  datatype Option<+T> = None | Some(value: T) {

    /** The wrapped value, or `default` when there is none (Swift's `??`). */
    function GetOr(default: T): (r: T)
      ensures Some? ==> r == value
      ensures None? ==> r == default
    {
      match this
      case Some(v) => v
      case None => default
    }
  }
}

=== FILE: precipitation_chart.dfy ===
/**
  The monthly precipitation bar chart: one bar per calendar month whose
  height is proportional to the month's total precipitation, with the total
  written beside the bar.
 */
module PrecipitationChart {
  import opened Calendar
  import opened Sequences
  import opened Stations

  /** Points of bar height per inch of precipitation. */
  const BarScale: real := 15.0
  /** Fixed width of every bar. */
  const BarWidth: real := 20.0
  /** Totals from this value up have their label moved down beside the bar. */
  const LabelThreshold: real := 2.4
  /** How far such a label is moved. */
  const LabelShift: real := 35.0

  /** Precipitation of the records added up from 0, left to right (`reduce(0) { $0 + $1.precipitation }`). */
  function TotalPrecipitation(ms: seq<DayInfo>): real
  {
    if |ms| == 0 then 0.0 else TotalPrecipitation(ms[..|ms| - 1]) + ms[|ms| - 1].precipitation
  }

  lemma {:induction false} TotalPrecipitationAppend(a: seq<DayInfo>, b: seq<DayInfo>)
    ensures TotalPrecipitation(a + b) == TotalPrecipitation(a) + TotalPrecipitation(b)
    decreases |b|
  {
    if |b| == 0 {
      assert a + b == a;
    } else {
      var init := b[..|b| - 1];
      assert (a + b)[..|a + b| - 1] == a + init;
      TotalPrecipitationAppend(a, init);
    }
  }

  /** With no negative amounts the total is not negative either. */
  lemma {:induction false} TotalPrecipitationNonNegative(ms: seq<DayInfo>)
    requires forall k :: 0 <= k < |ms| ==> ms[k].precipitation >= 0.0
    ensures TotalPrecipitation(ms) >= 0.0
    decreases |ms|
  {
    if |ms| > 0 {
      TotalPrecipitationNonNegative(ms[..|ms| - 1]);
    }
  }

  /**
    `sumPrecipitation(monthIndex)`: the precipitation of the records of one
    calendar month. The index is 0-based, so index 0 is January.
   */
  function SumPrecipitation(ms: seq<DayInfo>, monthIndex: int): real
  {
    TotalPrecipitation(InMonth(ms, monthIndex + 1))
  }

  /** A month without records sums to exactly 0, the seed of the reduction. */
  lemma EmptyMonthSumsToZero(ms: seq<DayInfo>, monthIndex: int)
    requires forall k :: 0 <= k < |ms| ==> ms[k].date.month != monthIndex + 1
    ensures SumPrecipitation(ms, monthIndex) == 0.0
  {
    InMonthNone(ms, monthIndex + 1);
  }

  /** With no negative amounts in the records no monthly sum is negative. */
  lemma SumPrecipitationNonNegative(ms: seq<DayInfo>, monthIndex: int)
    requires forall k :: 0 <= k < |ms| ==> ms[k].precipitation >= 0.0
    ensures SumPrecipitation(ms, monthIndex) >= 0.0
  {
    var r := InMonth(ms, monthIndex + 1);
    assert forall k :: 0 <= k < |r| ==> r[k] in ms;
    TotalPrecipitationNonNegative(r);
  }

  /**
    One more record changes the sum of its own month by its precipitation and
    leaves every other month's sum as it was.
   */
  lemma SumPrecipitationSnoc(ms: seq<DayInfo>, d: DayInfo, monthIndex: int)
    ensures SumPrecipitation(ms + [d], monthIndex) ==
      SumPrecipitation(ms, monthIndex) + (if d.date.month == monthIndex + 1 then d.precipitation else 0.0)
  {
    var m := monthIndex + 1;
    assert (ms + [d])[..|ms|] == ms;
    if d.date.month == m {
      assert InMonth(ms + [d], m) == InMonth(ms, m) + [d];
      assert (InMonth(ms, m) + [d])[..|InMonth(ms, m)|] == InMonth(ms, m);
    } else {
      assert InMonth(ms + [d], m) == InMonth(ms, m);
    }
  }

  /** Sum of the first `n` monthly sums (indices 0 up to n - 1). */
  function SumOfMonths(ms: seq<DayInfo>, n: nat): real
  {
    if n == 0 then 0.0 else SumOfMonths(ms, n - 1) + SumPrecipitation(ms, n - 1)
  }

  lemma {:induction false} SumOfMonthsSnoc(ms: seq<DayInfo>, d: DayInfo, n: nat)
    ensures SumOfMonths(ms + [d], n) ==
      SumOfMonths(ms, n) + (if d.date.month <= n then d.precipitation else 0.0)
  {
    if n > 0 {
      SumOfMonthsSnoc(ms, d, n - 1);
      SumPrecipitationSnoc(ms, d, n - 1);
      var before := SumOfMonths(ms, n - 1) + SumPrecipitation(ms, n - 1);
      var extra := if d.date.month <= n - 1 then d.precipitation else 0.0;
      var own := if d.date.month == n then d.precipitation else 0.0;
      assert SumOfMonths(ms, n) == before;
      assert SumOfMonths(ms + [d], n) == SumOfMonths(ms + [d], n - 1) + SumPrecipitation(ms + [d], n - 1);
      assert SumOfMonths(ms + [d], n) == before + extra + own;
    }
  }

  lemma {:induction false} SumOfMonthsEmpty(ms: seq<DayInfo>, n: nat)
    requires |ms| == 0
    ensures SumOfMonths(ms, n) == 0.0
  {
    if n > 0 {
      SumOfMonthsEmpty(ms, n - 1);
    }
  }

  /** The twelve monthly sums add up to the precipitation of the whole year. */
  lemma {:induction false} MonthlySumsAddUp(ms: seq<DayInfo>)
    ensures SumOfMonths(ms, 12) == TotalPrecipitation(ms)
    decreases |ms|
  {
    if |ms| == 0 {
      SumOfMonthsEmpty(ms, 12);
    } else {
      var init, last := ms[..|ms| - 1], ms[|ms| - 1];
      assert init + [last] == ms;
      assert Valid(last.date);
      MonthlySumsAddUp(init);
      SumOfMonthsSnoc(init, last, 12);
    }
  }

  /** The bar of one month as the chart lays it out. */
  datatype MonthBar = MonthBar(monthIndex: int, total: real, width: real, height: real, labelOffsetY: real, name: string)

  /** Bar height: the month's total times the fixed scale. */
  function BarHeight(total: real): (height: real)
    ensures total >= 0.0 ==> height >= 0.0
    ensures height / BarScale == total
  {
    total * BarScale
  }

  /** Vertical offset of the rotated total label: none below the threshold, a fixed shift from it on. */
  function LabelOffsetY(total: real): (offset: real)
    ensures offset == 0.0 || offset == LabelShift
    ensures offset == 0.0 <==> total < LabelThreshold
  {
    if total < LabelThreshold then 0.0 else LabelShift
  }

  /** A larger total never moves its label less. */
  lemma LabelOffsetMonotone(a: real, b: real)
    requires a <= b
    ensures LabelOffsetY(a) <= LabelOffsetY(b)
  {
  }

  /**
    The body of the chart: one bar for each month index 0 to 11, named by the
    calendar's short symbol for that month (`monthAbbreviation`).
   */
  function Bars(ms: seq<DayInfo>, monthSymbols: seq<string>): (bars: seq<MonthBar>)
    requires |monthSymbols| == 12
    ensures |bars| == 12
    ensures forall i :: 0 <= i < 12 ==>
      && bars[i].monthIndex == i
      && bars[i].width == BarWidth
      && bars[i].height == BarHeight(SumPrecipitation(ms, i))
      && bars[i].labelOffsetY == LabelOffsetY(SumPrecipitation(ms, i))
      && bars[i].name == monthSymbols[i]
  {
    seq(12, i requires 0 <= i < 12 =>
      var total := SumPrecipitation(ms, i);
      MonthBar(i, total, BarWidth, BarHeight(total), LabelOffsetY(total), monthSymbols[i]))
  }

  /** Sum of the heights of the first `n` bars. */
  function BarHeights(bars: seq<MonthBar>, n: nat): real
    requires n <= |bars|
  {
    if n == 0 then 0.0 else BarHeights(bars, n - 1) + bars[n - 1].height
  }

  lemma {:induction false} BarHeightsScaleMonths(ms: seq<DayInfo>, monthSymbols: seq<string>, n: nat)
    requires |monthSymbols| == 12 && n <= 12
    ensures BarHeights(Bars(ms, monthSymbols), n) == BarScale * SumOfMonths(ms, n)
  {
    if n > 0 {
      BarHeightsScaleMonths(ms, monthSymbols, n - 1);
    }
  }

  /** All twelve bars together are as tall as the year's precipitation at the bar scale. */
  lemma BarsShowWholeYear(ms: seq<DayInfo>, monthSymbols: seq<string>)
    requires |monthSymbols| == 12
    ensures BarHeights(Bars(ms, monthSymbols), 12) == BarScale * TotalPrecipitation(ms)
  {
    BarHeightsScaleMonths(ms, monthSymbols, 12);
    MonthlySumsAddUp(ms);
  }

  /** Two January records (1.0 and 2.5) and one February record (3.0): January sums to 3.5, February to 3.0. */
  lemma TwoMonthsExample(jan1: CalendarDate, jan2: CalendarDate, feb: CalendarDate)
    requires jan1.month == 1 && jan2.month == 1 && feb.month == 2
    ensures var ms := [DayInfo(jan1, 1.0, 0.0, 0.0, 0.0), DayInfo(jan2, 2.5, 0.0, 0.0, 0.0), DayInfo(feb, 3.0, 0.0, 0.0, 0.0)];
      SumPrecipitation(ms, 0) == 3.5 && SumPrecipitation(ms, 1) == 3.0 && SumPrecipitation(ms, 2) == 0.0
  {
    var a, b, c := DayInfo(jan1, 1.0, 0.0, 0.0, 0.0), DayInfo(jan2, 2.5, 0.0, 0.0, 0.0), DayInfo(feb, 3.0, 0.0, 0.0, 0.0);
    var s0: seq<DayInfo> := [];
    var s1 := s0 + [a];
    var s2 := s1 + [b];
    var s3 := s2 + [c];
    ThreeElements(s3, a, b, c);
    EmptyMonthSumsToZero(s0, 0);
    EmptyMonthSumsToZero(s0, 1);
    EmptyMonthSumsToZero(s0, 2);
    SumPrecipitationSnoc(s0, a, 0);
    SumPrecipitationSnoc(s1, b, 0);
    SumPrecipitationSnoc(s2, c, 0);
    SumPrecipitationSnoc(s0, a, 1);
    SumPrecipitationSnoc(s1, b, 1);
    SumPrecipitationSnoc(s2, c, 1);
    SumPrecipitationSnoc(s0, a, 2);
    SumPrecipitationSnoc(s1, b, 2);
    SumPrecipitationSnoc(s2, c, 2);
  }
}

=== FILE: scenario.dfy ===
/**
  A worked example of the loader: a header line followed by two rows of one
  station and one row of another. The number and date parsers are only
  constrained on the strings the example uses.
 */
module Scenario {
  import opened Optional
  import opened Calendar
  import opened Text
  import opened Sequences
  import opened Stations
  import opened StationParser
  import opened PrecipitationChart

  /**
    The columns of the example's four lines that the results depend on:
    `H,NAME,...`, two Springfield lines of station 001 (January 1 and
    February 1) and one Shelbyville line of station 002.
   */
  predicate ExampleRows(header: Row, jan: Row, feb: Row, other: Row) {
    && header[IdColumn] == "H" && header[NameColumn] == "NAME"
    && jan[IdColumn] == "001" && feb[IdColumn] == "001" && other[IdColumn] == "002"
    && jan[NameColumn] == "\"Springfield\"" && feb[NameColumn] == "\"Springfield\""
    && jan[AltitudeColumn] == "100"
    && jan[DateColumn] == "1/1/2018" && feb[DateColumn] == "2/1/2018"
    && jan[PrecipitationColumn] == "0.5" && feb[PrecipitationColumn] == "1.0"
    && jan[HighColumn] == "32.0" && jan[LowColumn] == "20.0"
    && feb[HighColumn] == "40.0" && feb[LowColumn] == "25.0"
  }

  /** What the number and date parsers return for the strings of the example. */
  predicate ReadsExample(p: Parsers) {
    && p.number("100") == Some(100.0)
    && p.number("0.5") == Some(0.5)
    && p.number("1.0") == Some(1.0)
    && p.number("32.0") == Some(32.0)
    && p.number("40.0") == Some(40.0)
    && p.number("20.0") == Some(20.0)
    && p.number("25.0") == Some(25.0)
    && p.date("1/1/2018") == Some(Date(2018, 1, 1))
    && p.date("2/1/2018") == Some(Date(2018, 2, 1))
  }

  /** A name holding a letter the sentinel lacks does not clean to the sentinel. */
  lemma NotHeaderByLetter(raw: string, c: char)
    requires c in raw && c !in HeaderName && c != '"' && c != ';' && c != ','
    ensures CleanName(raw) != HeaderName
  {
    assert Count(CleanName(raw), c) == Count(raw, c) != 0;
  }

  lemma SpringfieldIsNotHeader(name: string)
    requires name == "\"Springfield\""
    ensures CleanName(name) != HeaderName
  {
    assert name[1] == 'S';
    NotHeaderByLetter(name, 'S');
  }

  lemma SentinelIsClean(name: string)
    requires name == HeaderName
    ensures CleanName(name) == HeaderName
  {
    CleanNameKeepsCleanName(name);
  }

  /** Two runs of different ids, the first not named after the sentinel, give two stations. */
  lemma TwoRunsKept(first: Run, second: Run, p: Parsers)
    requires SameId(first) && SameId(second)
    requires IdOf(first[0]) != "" && IdOf(second[0]) != IdOf(first[0])
    requires CleanName(first[0][NameColumn]) != HeaderName
    ensures LoadStations(first + second, p) == [StationOf(first, p), StationOf(second, p)]
  {
    var runs: seq<Run> := [first, second];
    RunsOfOneRun(second);
    RunsPrepend(first, second);
    assert LiveRuns(runs) == runs;
    var a, b := StationOf(first, p), StationOf(second, p);
    TwoElements(StationsOf(runs, p), a, b);
    EmitTwo(a, b);
  }

  /**
    A row of id "" after a station closes that station and opens one of id "",
    which is emitted last like any final station.
   */
  lemma TrailingBlankRowOpensStation(a: Row, blank: Row, p: Parsers)
    requires IdOf(a) != "" && IdOf(blank) == ""
    requires CleanName(a[NameColumn]) != HeaderName
    ensures var r := LoadStations([a, blank], p);
      && r == [StationOf([a], p), StationOf([blank], p)]
      && r[1].id == ""
  {
    var first: Run := [a];
    var second: Run := [blank];
    assert first + second == [a, blank];
    TwoRunsKept(first, second, p);
  }

  /**
    A header run followed by rows of id "": the header is closed and dropped,
    and the rows after it open a station of id "". Without the header in front
    those rows load as nothing.
   */
  lemma HeaderThenBlankRun(header: Run, blank: Run, p: Parsers)
    requires SameId(header) && IdOf(header[0]) != ""
    requires CleanName(header[0][NameColumn]) == HeaderName
    requires SameId(blank) && IdOf(blank[0]) == ""
    ensures LoadStations(header + blank, p) == [StationOf(blank, p)]
    ensures LoadStations(blank, p) == []
  {
    RunsOfOneRun(blank);
    RunsPrepend(header, blank);
    var runs: seq<Run> := [header, blank];
    assert LiveRuns(runs) == runs;
    var h, b := StationOf(header, p), StationOf(blank, p);
    TwoElements(StationsOf(runs, p), h, b);
    EmitAfterHeader(h, b);
    assert LiveRuns([blank]) == [];
  }

  /** Of a header station and one after it, only the second is emitted. */
  lemma EmitAfterHeader(h: WeatherStation, b: WeatherStation)
    requires h.name == HeaderName
    ensures Emit([h, b]) == [b]
  {
    assert [h, b][..1] == [h];
    assert DropHeaders([h]) == DropHeaders([]);
  }

  lemma EmitTwo(a: WeatherStation, b: WeatherStation)
    requires a.name != HeaderName
    ensures Emit([a, b]) == [a, b]
  {
    assert [a, b][..1] == [a];
    assert DropHeaders([a]) == DropHeaders([]) + [a];
  }

  /** A header run in front of two station runs: the header is dropped and both stations are kept. */
  lemma HeaderThenTwoRuns(header: Run, first: Run, second: Run, p: Parsers)
    requires SameId(header) && SameId(first) && SameId(second)
    requires IdOf(header[0]) != "" && CleanName(header[0][NameColumn]) == HeaderName
    requires IdOf(first[0]) != "" && IdOf(first[0]) != IdOf(header[0])
    requires IdOf(second[0]) != IdOf(first[0])
    requires CleanName(first[0][NameColumn]) != HeaderName
    ensures LoadStations(header + (first + second), p) == [StationOf(first, p), StationOf(second, p)]
  {
    HeaderRunDropped(header, first + second, p);
    TwoRunsKept(first, second, p);
  }

  /**
    The header line yields no station, so the example gives two stations; the
    first is 328 ft high, its yearly low is 20 °F and high 40 °F, and its
    January precipitation is 0.5.
   */
  lemma EndToEnd(header: Row, jan: Row, feb: Row, other: Row, p: Parsers)
    requires ExampleRows(header, jan, feb, other)
    requires ReadsExample(p)
    ensures var ss := LoadStations([header, jan, feb, other], p);
      && |ss| == 2
      && ss[0].id == "001" && ss[1].id == "002"
      && ss[0].altitude == 328
      && |ss[0].measurements| == 2
      && LowTemperatureForYear(ss[0]) == 20.0
      && HighTemperatureForYear(ss[0]) == 40.0
      && SumPrecipitation(ss[0].measurements, 0) == 0.5
  {
    ExampleStations(header, jan, feb, other, p);
    SpringfieldRecords(jan, feb, p);
  }

  /** The header run is dropped and the two station runs are kept. */
  lemma ExampleStations(header: Row, jan: Row, feb: Row, other: Row, p: Parsers)
    requires ExampleRows(header, jan, feb, other)
    ensures LoadStations([header, jan, feb, other], p) == [StationOf([jan, feb], p), StationOf([other], p)]
  {
    var h: Run, f: Run, o: Run := [header], [jan, feb], [other];
    assert SameId(h) && SameId(f) && SameId(o);
    assert IdOf(h[0]) != "" && IdOf(f[0]) != "";
    assert IdOf(f[0]) != IdOf(h[0]) && IdOf(o[0]) != IdOf(f[0]);
    assert [header, jan, feb, other] == h + (f + o);
    SentinelIsClean(header[NameColumn]);
    SpringfieldIsNotHeader(jan[NameColumn]);
    HeaderThenTwoRuns(h, f, o, p);
  }

  /** The Springfield station's observations and what the charts read from them. */
  lemma SpringfieldRecords(jan: Row, feb: Row, p: Parsers)
    requires jan[AltitudeColumn] == "100"
    requires jan[DateColumn] == "1/1/2018" && feb[DateColumn] == "2/1/2018"
    requires jan[PrecipitationColumn] == "0.5"
    requires jan[HighColumn] == "32.0" && jan[LowColumn] == "20.0"
    requires feb[HighColumn] == "40.0" && feb[LowColumn] == "25.0"
    requires ReadsExample(p)
    ensures var s := StationOf([jan, feb], p);
      && s.altitude == 328
      && |s.measurements| == 2
      && LowTemperatureForYear(s) == 20.0
      && HighTemperatureForYear(s) == 40.0
      && SumPrecipitation(s.measurements, 0) == 0.5
  {
    var run: Run := [jan, feb];
    var s := StationOf(run, p);
    AltitudeOfHundredMetres();
    var j := Record(jan, p);
    var f := Record(feb, p);
    assert s.measurements == Records(run, p);
    TwoElements(s.measurements, j, f);
    assert j.low == 20.0 && f.low == 25.0 && j.high == 32.0 && f.high == 40.0;
    assert j.date.month == 1 && f.date.month == 2;
    assert InMonth([j, f], 1) == [j] by {
      assert [j, f][..1] == [j];
      assert InMonth([j], 1) == InMonth([], 1) + [j];
    }
    assert TotalPrecipitation([j]) == 0.5 by {
      assert [j][..0] == [];
    }
  }
}

=== FILE: sequences.dfy ===
/** Sequences of two or three elements written out element by element, for the worked examples. */
module Sequences {

  lemma TwoElements<T>(s: seq<T>, x: T, y: T)
    requires |s| == 2 && s[0] == x && s[1] == y
    ensures s == [x, y]
  {
  }

  lemma ThreeElements<T>(s: seq<T>, x: T, y: T, z: T)
    requires |s| == 3 && s[0] == x && s[1] == y && s[2] == z
    ensures s == [x, y, z]
  {
  }
}

=== FILE: station_parser.dfy ===
/**
  The loader `Array<WeatherStation>.init()`: CSV rows are cut into maximal
  runs of equal station id, each run becomes one station, a run whose name is
  the header sentinel `NAME` is dropped unless it is the last one, and rows
  that come before any station id (id "") are lost.

  `LoadStations` states this as a reference definition over runs;
  `ParseRows` is the loop of the source, and its postcondition ties it to
  the reference.
 */
module StationParser {
  import opened Optional
  import opened Text
  import opened Sequences
  import opened Stations

  const BlankRow: Row := ["", "", "", "", "", "", "", "", "", ""]

  /** A non-empty group of consecutive rows. */
  type Run = rows: seq<Row> | |rows| > 0 witness [BlankRow]

  function IdOf(row: Row): string {
    row[IdColumn]
  }

  /** The runs laid end to end. */
  function Flatten(runs: seq<Run>): (rows: seq<Row>)
    ensures |rows| >= |runs|
  {
    if |runs| == 0 then [] else Flatten(runs[..|runs| - 1]) + runs[|runs| - 1]
  }

  /** Every row of the run carries the id of its first row. */
  predicate SameId(run: Run) {
    forall k :: 0 <= k < |run| ==> IdOf(run[k]) == IdOf(run[0])
  }

  /** `runs` cuts `rows` into maximal contiguous runs of equal station id. */
  predicate IsRunPartition(runs: seq<Run>, rows: seq<Row>) {
    && Flatten(runs) == rows
    && (forall k :: 0 <= k < |runs| ==> SameId(runs[k]))
    && (forall k :: 0 < k < |runs| ==> IdOf(runs[k - 1][0]) != IdOf(runs[k][0]))
  }

  /** The maximal runs of equal station id, in document order, built one row at a time. */
  function Runs(rows: seq<Row>): seq<Run>
  {
    if |rows| == 0 then []
    else
      var init := Runs(rows[..|rows| - 1]);
      var row := rows[|rows| - 1];
      if |init| > 0 && IdOf(init[|init| - 1][0]) == IdOf(row) then
        init[..|init| - 1] + [init[|init| - 1] + [row]]
      else
        init + [[row]]
  }

  /** `Runs` partitions the rows into maximal contiguous runs of equal id. */
  lemma {:induction false} RunsPartition(rows: seq<Row>)
    ensures IsRunPartition(Runs(rows), rows)
    decreases |rows|
  {
    if |rows| > 0 {
      var prefix := rows[..|rows| - 1];
      var init := Runs(prefix);
      var row := rows[|rows| - 1];
      RunsPartition(prefix);
      assert rows == prefix + [row];
      if |init| > 0 && IdOf(init[|init| - 1][0]) == IdOf(row) {
        RunsExtend(prefix, row);
        PartitionExtend(init, prefix, row);
      } else {
        RunsOpen(prefix, row);
        PartitionOpen(init, prefix, row);
      }
    }
  }

  lemma PartitionExtend(init: seq<Run>, prefix: seq<Row>, row: Row)
    requires IsRunPartition(init, prefix)
    requires |init| > 0 && IdOf(init[|init| - 1][0]) == IdOf(row)
    ensures IsRunPartition(init[..|init| - 1] + [init[|init| - 1] + [row]], prefix + [row])
  {
    var runs := init[..|init| - 1] + [init[|init| - 1] + [row]];
    assert runs[..|runs| - 1] == init[..|init| - 1];
    assert Flatten(init) == Flatten(init[..|init| - 1]) + init[|init| - 1];
    assert forall k :: 0 <= k < |runs| - 1 ==> runs[k] == init[k];
    assert SameId(init[|init| - 1]);
  }

  lemma PartitionOpen(init: seq<Run>, prefix: seq<Row>, row: Row)
    requires IsRunPartition(init, prefix)
    requires |init| == 0 || IdOf(init[|init| - 1][0]) != IdOf(row)
    ensures IsRunPartition(init + [[row]], prefix + [row])
  {
    var runs := init + [[row]];
    assert runs[..|runs| - 1] == init;
    assert forall k :: 0 <= k < |runs| - 1 ==> runs[k] == init[k];
  }

  /** A row with the id of the last run extends that run. */
  lemma RunsExtend(rows: seq<Row>, row: Row)
    requires |Runs(rows)| > 0
    requires IdOf(Runs(rows)[|Runs(rows)| - 1][0]) == IdOf(row)
    ensures var init := Runs(rows);
      Runs(rows + [row]) == init[..|init| - 1] + [init[|init| - 1] + [row]]
  {
    var rs := rows + [row];
    assert rs[..|rs| - 1] == rows;
    assert rs[|rs| - 1] == row;
  }

  /** A row with another id, or the first row, opens a new run. */
  lemma RunsOpen(rows: seq<Row>, row: Row)
    requires |Runs(rows)| == 0 || IdOf(Runs(rows)[|Runs(rows)| - 1][0]) != IdOf(row)
    ensures Runs(rows + [row]) == Runs(rows) + [[row]]
  {
    var rs := rows + [row];
    assert rs[..|rs| - 1] == rows;
    assert rs[|rs| - 1] == row;
  }

  lemma {:induction false} FlattenEmpty(runs: seq<Run>)
    requires |Flatten(runs)| == 0
    ensures runs == []
  {
  }

  /** The partition into maximal runs is unique, so `Runs` is the only one there is. */
  lemma {:induction false} RunPartitionUnique(a: seq<Run>, b: seq<Run>, rows: seq<Row>)
    requires IsRunPartition(a, rows) && IsRunPartition(b, rows)
    ensures a == b
    decreases |rows|
  {
    if |rows| == 0 {
      FlattenEmpty(a);
      FlattenEmpty(b);
    } else {
      LastRunIsMaximal(a, rows);
      LastRunIsMaximal(b, rows);
      var la, lb := a[|a| - 1], b[|b| - 1];
      assert |la| == |lb|;
      var prefix := rows[..|rows| - |la|];
      var a', b' := a[..|a| - 1], b[..|b| - 1];
      assert Flatten(a) == Flatten(a') + la;
      assert Flatten(b) == Flatten(b') + lb;
      assert Flatten(a') == prefix;
      assert Flatten(b') == prefix;
      assert la == rows[|rows| - |la|..] == lb;
      assert IsRunPartition(a', prefix) by {
        assert forall k :: 0 <= k < |a'| ==> a'[k] == a[k];
      }
      assert IsRunPartition(b', prefix) by {
        assert forall k :: 0 <= k < |b'| ==> b'[k] == b[k];
      }
      RunPartitionUnique(a', b', prefix);
      assert a == a' + [la];
      assert b == b' + [lb];
    }
  }

  /** The last run of a partition is the longest suffix of rows sharing the final row's id. */
  lemma LastRunIsMaximal(runs: seq<Run>, rows: seq<Row>)
    requires IsRunPartition(runs, rows)
    requires |rows| > 0
    ensures |runs| > 0
    ensures var last := runs[|runs| - 1];
      && |last| <= |rows|
      && (forall i :: |rows| - |last| <= i < |rows| ==> IdOf(rows[i]) == IdOf(rows[|rows| - 1]))
      && (|last| < |rows| ==> IdOf(rows[|rows| - |last| - 1]) != IdOf(rows[|rows| - 1]))
  {
    var last := runs[|runs| - 1];
    var init := runs[..|runs| - 1];
    assert rows == Flatten(init) + last;
    assert SameId(last);
    assert forall i :: |rows| - |last| <= i < |rows| ==> rows[i] == last[i - (|rows| - |last|)];
    if |last| < |rows| {
      assert |init| > 0;
      var prev := init[|init| - 1];
      assert Flatten(init) == Flatten(init[..|init| - 1]) + prev;
      assert rows[|rows| - |last| - 1] == prev[|prev| - 1];
      assert SameId(runs[|runs| - 2]);
    }
  }

  /** The runs that become stations: a leading run of id "" has no station to join. */
  function LiveRuns(runs: seq<Run>): (live: seq<Run>)
    ensures |runs| > 0 && IdOf(runs[0][0]) == "" ==> live == runs[1..]
    ensures |runs| == 0 || IdOf(runs[0][0]) != "" ==> live == runs
  {
    if |runs| > 0 && IdOf(runs[0][0]) == "" then runs[1..] else runs
  }

  /** Replacing the last run by one with the same first row keeps the leading run decision. */
  lemma LiveRunsReplaceLast(runs: seq<Run>, x: Run)
    requires |LiveRuns(runs)| > 0
    requires x[0] == runs[|runs| - 1][0]
    ensures var live := LiveRuns(runs);
      LiveRuns(runs[..|runs| - 1] + [x]) == live[..|live| - 1] + [x]
  {
    var runs' := runs[..|runs| - 1] + [x];
    if IdOf(runs[0][0]) == "" {
      assert |runs| >= 2;
      assert runs'[0] == runs[0];
      assert runs'[1..] == runs[1..|runs| - 1] + [x];
    } else {
      assert runs'[0][0] == runs[0][0];
    }
  }

  /** Appending a run after a station has opened appends it to the live runs. */
  lemma LiveRunsAppend(runs: seq<Run>, x: Run)
    requires |LiveRuns(runs)| > 0
    ensures LiveRuns(runs + [x]) == LiveRuns(runs) + [x]
  {
    assert (runs + [x])[0] == runs[0];
    if IdOf(runs[0][0]) == "" {
      assert (runs + [x])[1..] == runs[1..] + [x];
    }
  }

  /** The observations of `rows`, one per row, in order. */
  function Records(rows: seq<Row>, p: Parsers): (ds: seq<DayInfo>)
    ensures |ds| == |rows|
    ensures forall k :: 0 <= k < |rows| ==> ds[k] == Record(rows[k], p)
  {
    if |rows| == 0 then [] else Records(rows[..|rows| - 1], p) + [Record(rows[|rows| - 1], p)]
  }

  /** The station a run produces: metadata from its first row, one record per row. */
  function StationOf(run: Run, p: Parsers): WeatherStation
  {
    OpenStation(run[0], p).(measurements := Records(run, p))
  }

  function StationsOf(runs: seq<Run>, p: Parsers): (ss: seq<WeatherStation>)
    ensures |ss| == |runs|
    ensures forall k :: 0 <= k < |runs| ==> ss[k] == StationOf(runs[k], p)
  {
    if |runs| == 0 then []
    else
      var init := StationsOf(runs[..|runs| - 1], p);
      var r := init + [StationOf(runs[|runs| - 1], p)];
      assert forall k :: 0 <= k < |runs| - 1 ==> r[k] == init[k];
      r
  }

  /** The stations not named after the header sentinel, in order. */
  function DropHeaders(ss: seq<WeatherStation>): seq<WeatherStation>
  {
    if |ss| == 0 then []
    else
      var init := DropHeaders(ss[..|ss| - 1]);
      var last := ss[|ss| - 1];
      if last.name != HeaderName then init + [last] else init
  }

  /** A station survives the header check exactly when it is not named after the sentinel. */
  lemma {:induction false} DropHeadersMember(ss: seq<WeatherStation>, s: WeatherStation)
    ensures s in DropHeaders(ss) <==> s in ss && s.name != HeaderName
    decreases |ss|
  {
    if |ss| > 0 {
      DropHeadersMember(ss[..|ss| - 1], s);
      assert ss == ss[..|ss| - 1] + [ss[|ss| - 1]];
    }
  }

  /** Every station but the last is subject to the header check; the last is always emitted. */
  function Emit(ss: seq<WeatherStation>): seq<WeatherStation>
  {
    if |ss| == 0 then [] else DropHeaders(ss[..|ss| - 1]) + [ss[|ss| - 1]]
  }

  /** Reference definition of the loader's result on well-formed rows. */
  function LoadStations(rows: seq<Row>, p: Parsers): seq<WeatherStation>
  {
    Emit(StationsOf(LiveRuns(Runs(rows)), p))
  }

  // ---------------------------------------------------------------------
  // The loop of the source

  /** The variables of the loader's closure: `stations`, `currentStationID`, `currentStation`. */
  datatype Loader = Loader(stations: seq<WeatherStation>, currentStationId: string, currentStation: Option<WeatherStation>)

  const Start: Loader := Loader([], "", None)

  /** The closure body for one line: maybe close the current station and open another, then append the record. */
  function Step(st: Loader, cols: Row, p: Parsers): Loader
  {
    var st1 :=
      if st.currentStationId != cols[IdColumn] then
        var stations :=
          if st.currentStation.Some? && st.currentStation.value.name != HeaderName
          then st.stations + [st.currentStation.value]
          else st.stations;
        Loader(stations, cols[IdColumn], Some(OpenStation(cols, p)))
      else st;
    var newData := Record(cols, p);
    match st1.currentStation
    case Some(s) => st1.(currentStation := Some(s.(measurements := s.measurements + [newData])))
    case None => st1
  }

  /** After the last line the station still open is added, with no header check. */
  function Finish(st: Loader): seq<WeatherStation>
  {
    match st.currentStation
    case Some(s) => st.stations + [s]
    case None => st.stations
  }

  /** How the loader's variables relate to the live runs of the rows read so far. */
  predicate Matches(live: seq<Run>, p: Parsers, st: Loader) {
    if |live| == 0 then
      st == Start
    else
      && st.currentStation == Some(StationOf(live[|live| - 1], p))
      && st.currentStationId == IdOf(live[|live| - 1][0])
      && st.stations == DropHeaders(StationsOf(live[..|live| - 1], p))
  }

  predicate Tracks(prefix: seq<Row>, p: Parsers, st: Loader) {
    Matches(LiveRuns(Runs(prefix)), p, st)
  }

  lemma StationOfSnoc(run: Run, row: Row, p: Parsers)
    ensures StationOf(run + [row], p) == StationOf(run, p).(measurements := StationOf(run, p).measurements + [Record(row, p)])
  {
    assert (run + [row])[..|run|] == run;
  }

  lemma StationsOfPrefix(runs: seq<Run>, n: nat, p: Parsers)
    requires n <= |runs|
    ensures StationsOf(runs[..n], p) == StationsOf(runs, p)[..n]
  {
  }

  lemma DropHeadersSnoc(ss: seq<WeatherStation>, s: WeatherStation)
    ensures DropHeaders(ss + [s]) == if s.name != HeaderName then DropHeaders(ss) + [s] else DropHeaders(ss)
  {
    assert (ss + [s])[..|ss|] == ss;
  }

  /** One step of the loop keeps the loader's variables in line with the runs read so far. */
  lemma StepTracks(prefix: seq<Row>, row: Row, p: Parsers, st: Loader)
    requires Tracks(prefix, p, st)
    ensures Tracks(prefix + [row], p, Step(st, row, p))
  {
    var live := LiveRuns(Runs(prefix));
    if |live| == 0 {
      StepBeforeFirstStation(prefix, row, p, st);
    } else if IdOf(row) == st.currentStationId {
      StepSameStation(prefix, row, p, st);
    } else {
      StepNewStation(prefix, row, p, st);
    }
  }

  lemma StepBeforeFirstStation(prefix: seq<Row>, row: Row, p: Parsers, st: Loader)
    requires Tracks(prefix, p, st)
    requires |LiveRuns(Runs(prefix))| == 0
    ensures Tracks(prefix + [row], p, Step(st, row, p))
  {
    var runs := Runs(prefix);
    var runs' := Runs(prefix + [row]);
    var live' := LiveRuns(runs');
    assert st == Start;
    if IdOf(row) == "" {
      if |runs| == 0 {
        RunsOpen(prefix, row);
      } else {
        RunsExtend(prefix, row);
      }
      assert |live'| == 0;
      assert Step(st, row, p) == Start;
    } else {
      RunsOpen(prefix, row);
      assert live' == [[row]];
      assert Step(st, row, p) == Loader([], IdOf(row), Some(StationOf([row], p)));
    }
  }

  lemma StepSameStation(prefix: seq<Row>, row: Row, p: Parsers, st: Loader)
    requires Tracks(prefix, p, st)
    requires |LiveRuns(Runs(prefix))| > 0
    requires IdOf(row) == st.currentStationId
    ensures Tracks(prefix + [row], p, Step(st, row, p))
  {
    var runs := Runs(prefix);
    var live := LiveRuns(runs);
    var last := live[|live| - 1];
    assert last == runs[|runs| - 1];
    RunsExtend(prefix, row);
    var runs' := Runs(prefix + [row]);
    var live' := LiveRuns(runs');
    LiveRunsReplaceLast(runs, last + [row]);
    assert live' == live[..|live| - 1] + [last + [row]];
    assert live'[..|live'| - 1] == live[..|live| - 1];
    StationOfSnoc(last, row, p);
    var s := StationOf(last, p);
    var st' := Step(st, row, p);
    assert st' == st.(currentStation := Some(s.(measurements := s.measurements + [Record(row, p)])));
    assert Matches(live', p, st');
  }

  lemma StepNewStation(prefix: seq<Row>, row: Row, p: Parsers, st: Loader)
    requires Tracks(prefix, p, st)
    requires |LiveRuns(Runs(prefix))| > 0
    requires IdOf(row) != st.currentStationId
    ensures Tracks(prefix + [row], p, Step(st, row, p))
  {
    var runs := Runs(prefix);
    var live := LiveRuns(runs);
    var last := live[|live| - 1];
    assert last == runs[|runs| - 1];
    RunsOpen(prefix, row);
    var runs' := Runs(prefix + [row]);
    var live' := LiveRuns(runs');
    LiveRunsAppend(runs, [row]);
    assert live' == live + [[row]];
    assert live'[..|live'| - 1] == live;
    StationsOfPrefix(live, |live| - 1, p);
    assert StationsOf(live, p) == StationsOf(live[..|live| - 1], p) + [StationOf(last, p)];
    DropHeadersSnoc(StationsOf(live[..|live| - 1], p), StationOf(last, p));
    var stations := if StationOf(last, p).name != HeaderName then st.stations + [StationOf(last, p)] else st.stations;
    var st' := Step(st, row, p);
    assert st' == Loader(stations, IdOf(row), Some(StationOf([row], p)));
    assert Matches(live', p, st');
  }

  /** Closing the loop yields the reference result. */
  lemma FinishTracks(rows: seq<Row>, p: Parsers, st: Loader)
    requires Tracks(rows, p, st)
    ensures Finish(st) == LoadStations(rows, p)
  {
    var live := LiveRuns(Runs(rows));
    if |live| > 0 {
      var ss := StationsOf(live, p);
      StationsOfPrefix(live, |live| - 1, p);
      assert ss[..|ss| - 1] == StationsOf(live[..|live| - 1], p);
    }
  }

  /** StepTracks, stated for a given name of the extended prefix. */
  lemma StepTracksInto(prefix: seq<Row>, row: Row, next: seq<Row>, p: Parsers, st: Loader)
    requires next == prefix + [row]
    requires Tracks(prefix, p, st)
    ensures Tracks(next, p, Step(st, row, p))
  {
    StepTracks(prefix, row, p, st);
  }

  lemma PrefixSnoc(rows: seq<Row>, i: nat)
    requires i < |rows|
    ensures rows[..i + 1] == rows[..i] + [rows[i]]
  {
  }

  /** The loader over already-split lines, as the source's loop runs it. */
  method ParseRows(rows: seq<Row>, p: Parsers) returns (stations: seq<WeatherStation>)
    ensures stations == LoadStations(rows, p)
  {
    var st := Start;
    var i := 0;
    while i < |rows|
      invariant 0 <= i <= |rows|
      invariant Tracks(rows[..i], p, st)
    {
      PrefixSnoc(rows, i);
      StepTracksInto(rows[..i], rows[i], rows[..i + 1], p, st);
      st := Step(st, rows[i], p);
      i := i + 1;
    }
    assert rows[..i] == rows;
    FinishTracks(rows, p, st);
    stations := Finish(st);
  }

  // ---------------------------------------------------------------------
  // From text

  /** Every line of the text has the ten columns the loader reads. */
  predicate WellFormedCsv(text: string) {
    forall line <- Lines(text) :: |Split(line, ',')| >= 10
  }

  /** The lines of the text, each split at its commas. */
  function CsvRows(text: string): (rows: seq<Row>)
    requires WellFormedCsv(text)
    ensures |rows| == |Lines(text)|
    ensures forall k :: 0 <= k < |rows| ==> rows[k] == Split(Lines(text)[k], ',')
  {
    var lines := Lines(text);
    seq(|lines|, k requires 0 <= k < |lines| => Split(lines[k], ','))
  }

  /** `[WeatherStation]()` on the contents of the bundled CSV file. */
  method LoadCsv(text: string, p: Parsers) returns (stations: seq<WeatherStation>)
    requires WellFormedCsv(text)
    ensures stations == LoadStations(CsvRows(text), p)
  {
    stations := ParseRows(CsvRows(text), p);
  }

  /** The rows of the text, each joined back at its commas. */
  function JoinRows(rows: seq<Row>): seq<string>
  {
    seq(|rows|, k requires 0 <= k < |rows| => Join(rows[k], ','))
  }

  /**
    No character of the text is lost between the text and the rows: joining
    every row at its commas and ending every line with a newline gives back
    the text, with a final newline added when it had none.
   */
  lemma CsvRowsRoundTrip(text: string)
    requires WellFormedCsv(text)
    ensures Unlines(JoinRows(CsvRows(text))) ==
      if |text| == 0 || text[|text| - 1] == Newline then text else text + [Newline]
  {
    var lines := Lines(text);
    var joined := JoinRows(CsvRows(text));
    forall k | 0 <= k < |lines|
      ensures joined[k] == lines[k]
    {
      JoinSplit(lines[k], ',');
    }
    assert joined == lines;
    LinesRoundTrip(text);
  }

  // ---------------------------------------------------------------------
  // Properties of the loader

  /** All observations of a sequence of stations, station after station. */
  function AllMeasurements(ss: seq<WeatherStation>): seq<DayInfo>
  {
    if |ss| == 0 then [] else AllMeasurements(ss[..|ss| - 1]) + ss[|ss| - 1].measurements
  }

  lemma LiveRunsMember(runs: seq<Run>, k: int)
    requires 0 <= k < |LiveRuns(runs)|
    ensures LiveRuns(runs)[k] in runs
  {
  }

  lemma EmitMember(ss: seq<WeatherStation>, s: WeatherStation)
    requires s in Emit(ss)
    ensures s in ss
  {
    if |ss| > 0 && s != ss[|ss| - 1] {
      assert s in DropHeaders(ss[..|ss| - 1]);
      DropHeadersMember(ss[..|ss| - 1], s);
    }
  }

  /**
    Each station the loader emits is one maximal run of equal id: its id,
    name, coordinates and altitude come from the run's first row only, and it
    holds one record per row of the run, in order.
   */
  lemma EachStationIsOneRun(rows: seq<Row>, p: Parsers)
    ensures forall s <- LoadStations(rows, p) :: exists run <- Runs(rows) ::
      && SameId(run)
      && s.id == IdOf(run[0])
      && s.name == CleanName(run[0][NameColumn])
      && s.latitude == Number(p, run[0][LatitudeColumn])
      && s.longitude == Number(p, run[0][LongitudeColumn])
      && s.altitude == AltitudeFeet(Number(p, run[0][AltitudeColumn]))
      && s.measurements == Records(run, p)
  {
    RunsPartition(rows);
    var runs := Runs(rows);
    var live := LiveRuns(runs);
    forall s <- LoadStations(rows, p)
      ensures exists run <- runs :: SameId(run) && s == StationOf(run, p)
    {
      EmitMember(StationsOf(live, p), s);
      var k :| 0 <= k < |live| && StationsOf(live, p)[k] == s;
      LiveRunsMember(runs, k);
      assert SameId(live[k]);
    }
  }

  /** The loader never emits a station without observations, so its yearly low and high exist. */
  lemma EveryStationHasRecords(rows: seq<Row>, p: Parsers)
    ensures forall s <- LoadStations(rows, p) :: |s.measurements| > 0
  {
    var live := LiveRuns(Runs(rows));
    forall s <- LoadStations(rows, p)
      ensures |s.measurements| > 0
    {
      EmitMember(StationsOf(live, p), s);
    }
  }

  /** Only the last station can carry the header name: every earlier one was checked. */
  lemma OnlyLastMayBeHeader(rows: seq<Row>, p: Parsers)
    ensures var r := LoadStations(rows, p);
      forall k :: 0 <= k < |r| - 1 ==> r[k].name != HeaderName
  {
    var ss := StationsOf(LiveRuns(Runs(rows)), p);
    if |ss| > 0 {
      var kept := DropHeaders(ss[..|ss| - 1]);
      forall k | 0 <= k < |kept|
        ensures kept[k].name != HeaderName
      {
        DropHeadersMember(ss[..|ss| - 1], kept[k]);
      }
    }
  }

  /**
    Once any station has opened, the station of the last run is the last one
    emitted, whatever its name and even when its id is "".
   */
  lemma LastRunAlwaysEmitted(rows: seq<Row>, p: Parsers)
    requires |LiveRuns(Runs(rows))| > 0
    ensures var r := LoadStations(rows, p); var runs := Runs(rows);
      |r| > 0 && |runs| > 0 && r[|r| - 1] == StationOf(runs[|runs| - 1], p)
  {
    var runs := Runs(rows);
    var live := LiveRuns(runs);
    assert live[|live| - 1] == runs[|runs| - 1];
  }

  lemma FlattenCons(run: Run, runs: seq<Run>)
    ensures Flatten([run] + runs) == run + Flatten(runs)
    decreases |runs|
  {
    if |runs| == 0 {
      assert [run] + runs == [run];
      assert Flatten([run]) == Flatten([]) + run;
    } else {
      var init := runs[..|runs| - 1];
      assert ([run] + runs)[..|runs|] == [run] + init;
      FlattenCons(run, init);
    }
  }

  /** A run placed in front of rows that start with another id becomes a run of its own. */
  lemma RunsPrepend(run: Run, rows: seq<Row>)
    requires SameId(run)
    requires |rows| > 0 && IdOf(rows[0]) != IdOf(run[0])
    ensures Runs(run + rows) == [run] + Runs(rows)
  {
    RunsPartition(rows);
    RunsPartition(run + rows);
    var runs := Runs(rows);
    FlattenCons(run, runs);
    var cand := [run] + runs;
    assert |runs| > 0;
    assert runs[0][0] == rows[0] by {
      FirstRow(runs);
    }
    assert forall k :: 1 <= k < |cand| ==> cand[k] == runs[k - 1];
    assert IsRunPartition(cand, run + rows);
    RunPartitionUnique(cand, Runs(run + rows), run + rows);
  }

  lemma FirstRow(runs: seq<Run>)
    requires |runs| > 0
    ensures |Flatten(runs)| > 0 && Flatten(runs)[0] == runs[0][0]
  {
    FlattenCons(runs[0], runs[1..]);
    assert runs == [runs[0]] + runs[1..];
  }

  lemma DropHeadersCons(s: WeatherStation, ss: seq<WeatherStation>)
    ensures DropHeaders([s] + ss) == (if s.name != HeaderName then [s] else []) + DropHeaders(ss)
    decreases |ss|
  {
    if |ss| == 0 {
      assert [s] + ss == [s];
      assert DropHeaders([s]) == DropHeaders([]) + (if s.name != HeaderName then [s] else []);
    } else {
      var init := ss[..|ss| - 1];
      assert ([s] + ss)[..|ss|] == [s] + init;
      DropHeadersCons(s, init);
    }
  }

  /** Rows read before any station id (id "") have no station to join and are lost. */
  lemma LeadingBlankRowsLost(blank: Run, rows: seq<Row>, p: Parsers)
    requires forall k :: 0 <= k < |blank| ==> IdOf(blank[k]) == ""
    requires |rows| > 0 && IdOf(rows[0]) != ""
    ensures LoadStations(blank + rows, p) == LoadStations(rows, p)
  {
    RunsPrepend(blank, rows);
    var runs := Runs(rows);
    FirstRow(runs);
    RunsPartition(rows);
    assert LiveRuns([blank] + runs) == runs;
  }

  lemma {:induction false} StationsOfCons(run: Run, runs: seq<Run>, p: Parsers)
    ensures StationsOf([run] + runs, p) == [StationOf(run, p)] + StationsOf(runs, p)
    decreases |runs|
  {
    if |runs| == 0 {
      assert [run] + runs == [run];
    } else {
      var init := runs[..|runs| - 1];
      assert ([run] + runs)[..|runs|] == [run] + init;
      StationsOfCons(run, init, p);
    }
  }

  /** A header-named station in front of at least one other is not emitted. */
  lemma EmitDropsLeadingHeader(h: WeatherStation, ss: seq<WeatherStation>)
    requires h.name == HeaderName && |ss| > 0
    ensures Emit([h] + ss) == Emit(ss)
  {
    var all := [h] + ss;
    assert all[..|all| - 1] == [h] + ss[..|ss| - 1];
    assert all[|all| - 1] == ss[|ss| - 1];
    DropHeadersCons(h, ss[..|ss| - 1]);
  }

  /**
    A run named after the header sentinel, followed by a run of another,
    non-empty id, leaves the load unchanged. A header followed by rows of id ""
    is different: see `HeaderThenBlankRun`.
   */
  lemma HeaderRunDropped(header: Run, rows: seq<Row>, p: Parsers)
    requires SameId(header) && IdOf(header[0]) != ""
    requires CleanName(header[0][NameColumn]) == HeaderName
    requires |rows| > 0 && IdOf(rows[0]) != "" && IdOf(rows[0]) != IdOf(header[0])
    ensures LoadStations(header + rows, p) == LoadStations(rows, p)
  {
    RunsPrepend(header, rows);
    var runs := Runs(rows);
    RunsPartition(rows);
    FirstRow(runs);
    assert LiveRuns([header] + runs) == [header] + runs;
    assert LiveRuns(runs) == runs;
    StationsOfCons(header, runs, p);
    EmitDropsLeadingHeader(StationOf(header, p), StationsOf(runs, p));
  }

  /** Rows that all carry one id form a single run. */
  lemma RunsOfOneRun(run: Run)
    requires SameId(run)
    ensures Runs(run) == [run]
  {
    RunsPartition(run);
    assert Flatten([run]) == Flatten([]) + run;
    assert IsRunPartition([run], run);
    RunPartitionUnique([run], Runs(run), run);
  }

  /**
    A file that holds only one run, of non-empty id, keeps it, even when it is
    named after the header sentinel. A single run of id "" opens no station.
   */
  lemma SingleRunAlwaysKept(run: Run, p: Parsers)
    requires SameId(run) && IdOf(run[0]) != ""
    ensures LoadStations(run, p) == [StationOf(run, p)]
  {
    RunsOfOneRun(run);
    assert LiveRuns([run]) == [run];
    assert StationsOf([run], p) == [StationOf(run, p)];
  }

  // ---------------------------------------------------------------------
  // Where the rows go

  /** The runs whose station passes the header check, in order. */
  function HeaderFree(runs: seq<Run>): (r: seq<Run>)
    ensures forall run :: run in r <==> run in runs && CleanName(run[0][NameColumn]) != HeaderName
  {
    if |runs| == 0 then []
    else
      var init := HeaderFree(runs[..|runs| - 1]);
      var last := runs[|runs| - 1];
      assert runs == runs[..|runs| - 1] + [last];
      if CleanName(last[0][NameColumn]) != HeaderName then init + [last] else init
  }

  /** The runs that end up as stations: all but the last pass the header check, the last is kept. */
  function KeptRuns(runs: seq<Run>): seq<Run>
  {
    if |runs| == 0 then [] else HeaderFree(runs[..|runs| - 1]) + [runs[|runs| - 1]]
  }

  lemma StationsOfSnoc(runs: seq<Run>, run: Run, p: Parsers)
    ensures StationsOf(runs + [run], p) == StationsOf(runs, p) + [StationOf(run, p)]
  {
    assert (runs + [run])[..|runs|] == runs;
  }

  /** Dropping header stations is dropping header runs. */
  lemma {:induction false} StationsOfHeaderFree(runs: seq<Run>, p: Parsers)
    ensures StationsOf(HeaderFree(runs), p) == DropHeaders(StationsOf(runs, p))
    decreases |runs|
  {
    if |runs| > 0 {
      var init := runs[..|runs| - 1];
      var last := runs[|runs| - 1];
      var ss := StationsOf(runs, p);
      StationsOfHeaderFree(init, p);
      StationsOfPrefix(runs, |runs| - 1, p);
      assert ss[..|ss| - 1] == StationsOf(init, p);
      assert StationOf(last, p).name == CleanName(last[0][NameColumn]);
      if CleanName(last[0][NameColumn]) != HeaderName {
        StationsOfSnoc(HeaderFree(init), last, p);
      }
    }
  }

  /** The emitted stations are exactly the stations of the kept runs. */
  lemma EmitIsKeptRuns(runs: seq<Run>, p: Parsers)
    ensures Emit(StationsOf(runs, p)) == StationsOf(KeptRuns(runs), p)
  {
    if |runs| > 0 {
      var init := runs[..|runs| - 1];
      var ss := StationsOf(runs, p);
      StationsOfPrefix(runs, |runs| - 1, p);
      assert ss[..|ss| - 1] == StationsOf(init, p);
      StationsOfHeaderFree(init, p);
      StationsOfSnoc(HeaderFree(init), runs[|runs| - 1], p);
    }
  }

  lemma {:induction false} RecordsAppend(a: seq<Row>, b: seq<Row>, p: Parsers)
    ensures Records(a + b, p) == Records(a, p) + Records(b, p)
  {
  }

  /** The observations of the stations of some runs are the records of their rows, in order. */
  lemma {:induction false} AllMeasurementsOfRuns(runs: seq<Run>, p: Parsers)
    ensures AllMeasurements(StationsOf(runs, p)) == Records(Flatten(runs), p)
    decreases |runs|
  {
    if |runs| > 0 {
      var init := runs[..|runs| - 1];
      var ss := StationsOf(runs, p);
      AllMeasurementsOfRuns(init, p);
      StationsOfPrefix(runs, |runs| - 1, p);
      assert ss[..|ss| - 1] == StationsOf(init, p);
      RecordsAppend(Flatten(init), runs[|runs| - 1], p);
    }
  }

  /**
    The observations of all emitted stations, station after station, are the
    records of the input rows in order, minus the rows of the dropped runs:
    a leading run of id "" and every header run but the last.
   */
  lemma MeasurementsFollowRows(rows: seq<Row>, p: Parsers)
    ensures AllMeasurements(LoadStations(rows, p)) == Records(Flatten(KeptRuns(LiveRuns(Runs(rows)))), p)
  {
    var live := LiveRuns(Runs(rows));
    EmitIsKeptRuns(live, p);
    AllMeasurementsOfRuns(KeptRuns(live), p);
  }

  lemma {:induction false} HeaderFreeKeepsAll(runs: seq<Run>)
    requires forall k :: 0 <= k < |runs| ==> CleanName(runs[k][0][NameColumn]) != HeaderName
    ensures HeaderFree(runs) == runs
    decreases |runs|
  {
    if |runs| > 0 {
      HeaderFreeKeepsAll(runs[..|runs| - 1]);
    }
  }

  /** No run but the last is named after the header sentinel. */
  predicate NoEarlyHeader(runs: seq<Run>) {
    forall k :: 0 <= k < |runs| - 1 ==> CleanName(runs[k][0][NameColumn]) != HeaderName
  }

  /**
    When the first row has a station id and no run but the last is named after
    the header sentinel, nothing is dropped: the stations' observations are
    the records of every input row, in order.
   */
  lemma NothingDroppedKeepsEveryRow(rows: seq<Row>, p: Parsers)
    requires |rows| > 0 && IdOf(rows[0]) != ""
    requires NoEarlyHeader(Runs(rows))
    ensures AllMeasurements(LoadStations(rows, p)) == Records(rows, p)
  {
    var runs := Runs(rows);
    RunsPartition(rows);
    assert |runs| > 0;
    FirstRow(runs);
    assert LiveRuns(runs) == runs;
    var init := runs[..|runs| - 1];
    forall k | 0 <= k < |init|
      ensures CleanName(init[k][0][NameColumn]) != HeaderName
    {
      assert init[k] == runs[k];
    }
    HeaderFreeKeepsAll(init);
    assert runs == init + [runs[|runs| - 1]];
    assert KeptRuns(runs) == runs;
    MeasurementsFollowRows(rows, p);
  }

  /**
    A station id that comes back after another station's rows opens a second
    station with the same id: runs are never merged.
   */
  lemma ReappearingIdNotMerged(first: Run, other: Run, again: Run, p: Parsers)
    requires SameId(first) && SameId(other) && SameId(again)
    requires IdOf(first[0]) != "" && IdOf(again[0]) == IdOf(first[0]) && IdOf(other[0]) != IdOf(first[0])
    requires CleanName(first[0][NameColumn]) != HeaderName && CleanName(other[0][NameColumn]) != HeaderName
    ensures var r := LoadStations(first + other + again, p);
      && r == [StationOf(first, p), StationOf(other, p), StationOf(again, p)]
      && r[0].id == r[2].id
  {
    var runs := [first, other, again];
    ThreeRuns(first, other, again);
    assert LiveRuns(runs) == runs;
    var ss := [StationOf(first, p), StationOf(other, p), StationOf(again, p)];
    StationsOfThree(first, other, again, p);
    ThreeStationsEmitted(ss[0], ss[1], ss[2]);
  }

  lemma StationsOfThree(a: Run, b: Run, c: Run, p: Parsers)
    ensures StationsOf([a, b, c], p) == [StationOf(a, p), StationOf(b, p), StationOf(c, p)]
  {
    var runs := [a, b, c];
    var ss := StationsOf(runs, p);
    ThreeElements(ss, StationOf(a, p), StationOf(b, p), StationOf(c, p));
  }

  lemma ThreeRuns(first: Run, other: Run, again: Run)
    requires SameId(first) && SameId(other) && SameId(again)
    requires IdOf(other[0]) != IdOf(first[0]) && IdOf(again[0]) != IdOf(other[0])
    ensures Runs(first + other + again) == [first, other, again]
  {
    RunsOfOneRun(again);
    RunsPrepend(other, again);
    assert first + other + again == first + (other + again);
    RunsPrepend(first, other + again);
  }

  lemma ThreeStationsEmitted(a: WeatherStation, b: WeatherStation, c: WeatherStation)
    requires a.name != HeaderName && b.name != HeaderName
    ensures Emit([a, b, c]) == [a, b, c]
  {
    var none: seq<WeatherStation> := [];
    var one := none + [a];
    var two := one + [b];
    var three := two + [c];
    ThreeElements(three, a, b, c);
    assert one[..0] == none;
    assert DropHeaders(one) == one;
    assert two[..1] == one;
    assert DropHeaders(two) == two;
    assert three[..2] == two;
  }
}

=== FILE: stations.dfy ===
/**
  The weather-station records and the per-row decoding rules of the CSV
  loader: one `DayInfo` per row, station metadata from the columns of a row,
  and the derived queries a station answers (records of a month, yearly low
  and high).
 */
module Stations {
  import opened Optional
  import opened Calendar
  import opened Text

  /** One day of observations for one station. */
  datatype DayInfo = DayInfo(date: CalendarDate, precipitation: real, snowfall: real, high: real, low: real)

  /** A station and its observations, in the order the rows were read. Altitude is in whole feet. */
  datatype WeatherStation = WeatherStation(
    id: string,
    name: string,
    latitude: real,
    longitude: real,
    altitude: int,
    measurements: seq<DayInfo>)

  /**
    The Foundation conversions the loader calls, which are not part of this
    model: `Double(_:)` on a column and a `M/d/yyyy` date formatter. Each
    yields `None` where Swift yields `nil`.
   */
  datatype Parsers = Parsers(number: string -> Option<real>, date: string -> Option<CalendarDate>)

  /** One CSV line split at its commas. Every line has the ten columns the loader indexes. */
  type Row = cols: seq<string> | |cols| >= 10 witness ["", "", "", "", "", "", "", "", "", ""]

  // Column positions of a row.
  const IdColumn := 0
  const NameColumn := 1
  const LatitudeColumn := 2
  const LongitudeColumn := 3
  const AltitudeColumn := 4
  const DateColumn := 5
  const PrecipitationColumn := 6
  const SnowfallColumn := 7
  const HighColumn := 8
  const LowColumn := 9

  /** The station name used by the header row. */
  const HeaderName: string := "NAME"

  /** Exact value of the metres-to-feet factor 3.28084. */
  const FeetPerMetre: real := 3.28084

  /** A numeric column, 0 when it does not parse. */
  function Number(p: Parsers, column: string): (x: real)
    ensures p.number(column).None? ==> x == 0.0
    ensures p.number(column).Some? ==> x == p.number(column).value
  {
    p.number(column).GetOr(0.0)
  }

  /** A date column, 1/1/2018 when it does not parse. */
  function DateOf(p: Parsers, column: string): (d: CalendarDate)
    ensures p.date(column).None? ==> d == Date(2018, 1, 1)
    ensures p.date(column).Some? ==> d == p.date(column).value
  {
    p.date(column).GetOr(FallbackDate)
  }

  /** Swift's `Int(_: Double)`: the integer part, rounding toward zero. */
  function TruncateTowardZero(x: real): int
  {
    if x >= 0.0 then x.Floor else -((-x).Floor)
  }

  /** The truncation drops less than one whole unit, toward zero. */
  lemma TruncateTowardZeroBounds(x: real)
    ensures 0.0 <= x ==> 0 <= TruncateTowardZero(x) && TruncateTowardZero(x) as real <= x < TruncateTowardZero(x) as real + 1.0
    ensures x < 0.0 ==> TruncateTowardZero(x) <= 0 && TruncateTowardZero(x) as real - 1.0 < x <= TruncateTowardZero(x) as real
  {
  }

  /** An altitude in metres converted to whole feet, truncating toward zero. */
  function AltitudeFeet(metres: real): int
  {
    TruncateTowardZero(metres * FeetPerMetre)
  }

  /** The stored altitude is the exact length in feet with its fraction dropped toward zero. */
  lemma AltitudeFeetBounds(metres: real)
    ensures var feet := AltitudeFeet(metres);
      && (0.0 <= metres ==> 0 <= feet && feet as real <= metres * FeetPerMetre < feet as real + 1.0)
      && (metres < 0.0 ==> feet <= 0 && feet as real - 1.0 < metres * FeetPerMetre <= feet as real)
  {
    TruncateTowardZeroBounds(metres * FeetPerMetre);
  }

  /** 100 m is 328.084 ft, which the loader stores as 328. */
  lemma AltitudeOfHundredMetres()
    ensures AltitudeFeet(100.0) == 328
  {
    assert 100.0 * FeetPerMetre == 328.084;
  }

  /** A name column with its double quotes removed and its semicolons turned into commas. */
  function CleanName(raw: string): string
  {
    ReplaceAll(RemoveAll(raw, '"'), ';', ',')
  }

  /**
    A cleaned name has no quote and no semicolon left, is shorter by the
    quotes, has a comma for every comma and semicolon, and keeps every other
    character as often as the raw name has it.
   */
  lemma CleanNameCounts(raw: string)
    ensures var name := CleanName(raw);
      && '"' !in name && ';' !in name
      && |name| == |raw| - Count(raw, '"')
      && Count(name, ',') == Count(raw, ',') + Count(raw, ';')
      && forall c :: c != '"' && c != ';' && c != ',' ==> Count(name, c) == Count(raw, c)
  {
    var unquoted := RemoveAll(raw, '"');
    var name := ReplaceAll(unquoted, ';', ',');
    assert Count(name, '"') == Count(unquoted, '"') == 0;
  }

  /** A name with no quote and no semicolon is kept as it is. */
  lemma CleanNameKeepsCleanName(raw: string)
    requires '"' !in raw && ';' !in raw
    ensures CleanName(raw) == raw
  {
    RemoveAllAbsent(raw, '"');
    ReplaceAllAbsent(raw, ';', ',');
  }

  /** Cleaning is idempotent: a cleaned name has nothing left to clean. */
  lemma CleanNameIdempotent(raw: string)
    ensures CleanName(CleanName(raw)) == CleanName(raw)
  {
    CleanNameCounts(raw);
    CleanNameKeepsCleanName(CleanName(raw));
  }

  /** The observation a row carries; unparsable columns take their defaults, so no row is rejected. */
  function Record(row: Row, p: Parsers): DayInfo
  {
    DayInfo(
      DateOf(p, row[DateColumn]),
      Number(p, row[PrecipitationColumn]),
      Number(p, row[SnowfallColumn]),
      Number(p, row[HighColumn]),
      Number(p, row[LowColumn]))
  }

  /** Tolerant defaults: a high that does not parse reads as 0, and a date that does not parse reads as 1/1/2018. */
  lemma TolerantDefaults(row: Row, p: Parsers)
    ensures p.number(row[HighColumn]).None? ==> Record(row, p).high == 0.0
    ensures p.number(row[LowColumn]).None? ==> Record(row, p).low == 0.0
    ensures p.number(row[PrecipitationColumn]).None? ==> Record(row, p).precipitation == 0.0
    ensures p.number(row[SnowfallColumn]).None? ==> Record(row, p).snowfall == 0.0
    ensures p.date(row[DateColumn]).None? ==> Record(row, p).date == Date(2018, 1, 1)
  {
  }

  /** A station opened by `row`: metadata from its columns, no observations yet. */
  function OpenStation(row: Row, p: Parsers): WeatherStation
  {
    WeatherStation(
      row[IdColumn],
      CleanName(row[NameColumn]),
      Number(p, row[LatitudeColumn]),
      Number(p, row[LongitudeColumn]),
      AltitudeFeet(Number(p, row[AltitudeColumn])),
      [])
  }

  // ---------------------------------------------------------------------
  // Derived queries

  /** The records of `ms` dated in `month`, in their original order. */
  function InMonth(ms: seq<DayInfo>, month: int): (r: seq<DayInfo>)
    ensures |r| <= |ms|
    ensures forall d :: d in r <==> d in ms && d.date.month == month
  {
    if |ms| == 0 then []
    else
      var init := InMonth(ms[..|ms| - 1], month);
      var last := ms[|ms| - 1];
      assert ms == ms[..|ms| - 1] + [last];
      if last.date.month == month then init + [last] else init
  }

  /** One more record joins its own month's filter at the end and no other. */
  lemma InMonthSnoc(ms: seq<DayInfo>, d: DayInfo, month: int)
    ensures InMonth(ms + [d], month) == if d.date.month == month then InMonth(ms, month) + [d] else InMonth(ms, month)
  {
    assert (ms + [d])[..|ms|] == ms;
  }

  /** Filtering by month keeps the order of the records: it distributes over concatenation. */
  lemma {:induction false} InMonthAppend(a: seq<DayInfo>, b: seq<DayInfo>, month: int)
    ensures InMonth(a + b, month) == InMonth(a, month) + InMonth(b, month)
    decreases |b|
  {
    if |b| == 0 {
      assert a + b == a;
    } else {
      var init := b[..|b| - 1];
      assert (a + b)[..|a + b| - 1] == a + init;
      InMonthAppend(a, init, month);
    }
  }

  /** A month none of the records falls in has no records. */
  lemma {:induction false} InMonthNone(ms: seq<DayInfo>, month: int)
    requires forall k :: 0 <= k < |ms| ==> ms[k].date.month != month
    ensures InMonth(ms, month) == []
    decreases |ms|
  {
    if |ms| > 0 {
      InMonthNone(ms[..|ms| - 1], month);
    }
  }

  /** `measurementsInMonth`: the station's records whose calendar month is `month`. */
  function MeasurementsInMonth(s: WeatherStation, month: int): (r: seq<DayInfo>)
    ensures |r| <= |s.measurements|
    ensures forall d :: d in r <==> d in s.measurements && d.date.month == month
  {
    InMonth(s.measurements, month)
  }

  /** Nothing is lost or duplicated: each record lands in exactly the month of its date. */
  lemma {:induction false} MonthsPartitionRecords(ms: seq<DayInfo>)
    ensures MonthCounts(ms, 12) == |ms|
    decreases |ms|
  {
    if |ms| == 0 {
      MonthCountsEmpty(ms, 12);
    } else {
      var init, last := ms[..|ms| - 1], ms[|ms| - 1];
      assert init + [last] == ms;
      assert Valid(last.date);
      MonthsPartitionRecords(init);
      MonthCountsSnoc(init, last, 12);
    }
  }

  /** Total size of the first `n` month filters. */
  function MonthCounts(ms: seq<DayInfo>, n: nat): nat
  {
    if n == 0 then 0 else MonthCounts(ms, n - 1) + |InMonth(ms, n)|
  }

  lemma {:induction false} MonthCountsEmpty(ms: seq<DayInfo>, n: nat)
    requires |ms| == 0
    ensures MonthCounts(ms, n) == 0
  {
    if n > 0 {
      MonthCountsEmpty(ms, n - 1);
    }
  }

  lemma {:induction false} MonthCountsSnoc(ms: seq<DayInfo>, d: DayInfo, n: nat)
    ensures MonthCounts(ms + [d], n) == MonthCounts(ms, n) + (if d.date.month <= n then 1 else 0)
  {
    if n > 0 {
      MonthCountsSnoc(ms, d, n - 1);
      InMonthSnoc(ms, d, n);
    }
  }

  /** The smallest `low` of a non-empty sequence of records. */
  function MinLow(ms: seq<DayInfo>): (m: real)
    requires |ms| > 0
    ensures forall i :: 0 <= i < |ms| ==> m <= ms[i].low
    ensures exists i :: 0 <= i < |ms| && m == ms[i].low
  {
    if |ms| == 1 then ms[0].low
    else
      var rest := MinLow(ms[1..]);
      assert forall i :: 1 <= i < |ms| ==> ms[i] == ms[1..][i - 1];
      if ms[0].low <= rest then ms[0].low else rest
  }

  /** The largest `high` of a non-empty sequence of records. */
  function MaxHigh(ms: seq<DayInfo>): (m: real)
    requires |ms| > 0
    ensures forall i :: 0 <= i < |ms| ==> ms[i].high <= m
    ensures exists i :: 0 <= i < |ms| && m == ms[i].high
  {
    if |ms| == 1 then ms[0].high
    else
      var rest := MaxHigh(ms[1..]);
      assert forall i :: 1 <= i < |ms| ==> ms[i] == ms[1..][i - 1];
      if ms[0].high >= rest then ms[0].high else rest
  }

  /** `lowTemperatureForYear`: the lowest low of the year; undefined for a station without records. */
  function LowTemperatureForYear(s: WeatherStation): (low: real)
    requires |s.measurements| > 0
    ensures forall d :: d in s.measurements ==> low <= d.low
    ensures exists d :: d in s.measurements && d.low == low
  {
    MinLow(s.measurements)
  }

  /** `highTemperatureForYear`: the highest high of the year; undefined for a station without records. */
  function HighTemperatureForYear(s: WeatherStation): (high: real)
    requires |s.measurements| > 0
    ensures forall d :: d in s.measurements ==> d.high <= high
    ensures exists d :: d in s.measurements && d.high == high
  {
    MaxHigh(s.measurements)
  }
}

=== FILE: temperature_chart.dfy ===
/**
  The temperature chart: every day is a vertical segment from its low to its
  high temperature, over horizontal gridlines every 10 °F and vertical
  markers at the first of each month. The canvas has its origin at the top
  left; the y axis spans -10 °F (bottom) to 100 °F (top) and the x axis the
  365 days of 2018.

  Two versions of the chart share the same static helpers: one draws the
  gridlines and month markers inline (`Body04`), the other through the
  `Degrees` and `MonthNames` views that can be switched off (`Body05`).
 */
module TemperatureChart {
  import opened Optional
  import opened Calendar
  import opened Stations

  /** Degrees spanned by the y axis: -10 °F to 100 °F. */
  const TemperatureRange: int := 110
  /** Days spanned by the x axis. */
  const DaysInYear: int := 365
  /** Horizontal offset of a gridline label. */
  const GridLabelX: real := 10.0
  /** A month label starts this many days after the first of its month. */
  const MonthLabelDays: real := 5.0
  /** A month label sits this far above the bottom edge. */
  const MonthLabelRise: real := 25.0

  datatype Point = Point(x: real, y: real)
  datatype Size = Size(width: real, height: real)

  // ---------------------------------------------------------------------
  // Static helpers

  /** Points per degree: the canvas height split into `range` equal parts. */
  function DegreeHeight(height: real, range: int): (h: real)
    requires range != 0
    ensures h * range as real == height
  {
    height / range as real
  }

  /** Points per day: the canvas width split into `count` equal parts. */
  function DayWidth(width: real, count: int): (w: real)
    requires count != 0
    ensures w * count as real == width
  {
    width / count as real
  }

  /** x of a date: its 1-based day of the year in day widths, so January 1 sits one day width in. */
  function DayOffset(date: CalendarDate, dWidth: real): real
  {
    DayOfYear(date) as real * dWidth
  }

  /** Height of a temperature above the bottom edge, in points; -10 °F is at height 0. */
  function TempOffset(temperature: real, degreeHeight: real): (h: real)
    ensures degreeHeight > 0.0 ==> (h > 0.0 <==> temperature > -10.0)
  {
    (temperature + 10.0) * degreeHeight
  }

  /** y of the gridline for `line` tens of degrees, on a canvas `height` tall. */
  function TempLabelOffset(line: int, height: real): (y: real)
    ensures y == height * (10 - line) as real / 11.0
  {
    height - TempOffset((line * 10) as real, DegreeHeight(height, TemperatureRange))
  }

  /** x of the first day of `month` of 2018 on a canvas `width` wide. */
  function OffsetFirstOfMonth(month: int, width: real): (x: real)
    requires 1 <= month <= 12
    ensures x == FirstOrdinalOfMonth(month) as real * width / 365.0
    ensures width > 0.0 ==> 0.0 < x < width
  {
    DayOffset(Date(ReportingYear, month, 1), DayWidth(width, DaysInYear))
  }

  // ---------------------------------------------------------------------
  // Properties of the helpers

  /** Later dates of a year are never to the left of earlier ones. */
  lemma DayOffsetMonotone(a: CalendarDate, b: CalendarDate, dWidth: real)
    requires SameYearNotAfter(a, b)
    requires dWidth >= 0.0
    ensures DayOffset(a, dWidth) <= DayOffset(b, dWidth)
  {
    DayOfYearMonotone(a, b);
    ScaledOrder(DayOfYear(a), DayOfYear(b), dWidth, DayOffset(a, dWidth), DayOffset(b, dWidth));
  }

  /** Every date of the year lies between one and 365 day widths from the left edge. */
  lemma DayOffsetBounds(date: CalendarDate, dWidth: real)
    requires dWidth >= 0.0
    ensures dWidth <= DayOffset(date, dWidth) <= 365.0 * dWidth
  {
    ScaledOrder(1, DayOfYear(date), dWidth, dWidth, DayOffset(date, dWidth));
    ScaledOrder(DayOfYear(date), 365, dWidth, DayOffset(date, dWidth), 365.0 * dWidth);
  }

  /** Scaling two counts by the same non-negative factor keeps their order. */
  lemma ScaledOrder(m: int, n: int, w: real, p: real, q: real)
    requires m <= n && w >= 0.0
    requires p == m as real * w && q == n as real * w
    ensures p <= q
  {
    assert q - p == (n - m) as real * w;
  }

  /**
    January 1 maps to one day width, not to 0, and December 31 to the full
    365. The ordinals come from the non-leap 2018 table, so `year` plays no
    part; a leap year's December 31 (day 366 in the app) is not modelled.
   */
  lemma DayOffsetEnds(year: int, dWidth: real)
    ensures DayOffset(Date(year, 1, 1), dWidth) == dWidth
    ensures DayOffset(Date(year, 12, 31), dWidth) == 365.0 * dWidth
  {
  }

  /** Warmer is higher: the offset grows strictly with the temperature for a positive scale. */
  lemma TempOffsetMonotone(t1: real, t2: real, degreeHeight: real)
    requires t1 < t2 && degreeHeight > 0.0
    ensures TempOffset(t1, degreeHeight) < TempOffset(t2, degreeHeight)
  {
  }

  /**
    y of a temperature on a canvas `height` tall is proportional to how far
    it is below 100 °F: 100 °F is on the top edge and -10 °F on the bottom edge.
   */
  lemma TemperatureY(t: real, height: real)
    ensures height - TempOffset(t, DegreeHeight(height, TemperatureRange)) == height * (100.0 - t) / 110.0
    ensures height - TempOffset(100.0, DegreeHeight(height, TemperatureRange)) == 0.0
    ensures height - TempOffset(-10.0, DegreeHeight(height, TemperatureRange)) == height
  {
  }

  /** Gridlines run from line 10 at the top edge down to line -1 at the bottom edge, strictly in order. */
  lemma TempLabelOffsetOrder(l1: int, l2: int, height: real)
    requires l1 < l2 && height > 0.0
    ensures TempLabelOffset(l2, height) < TempLabelOffset(l1, height)
    ensures TempLabelOffset(10, height) == 0.0 && TempLabelOffset(-1, height) == height
  {
    assert (10 - l2) as real < (10 - l1) as real;
  }

  /** Stretching the canvas stretches every gridline position by the same factor. */
  lemma TempLabelOffsetScales(line: int, height: real, k: real)
    ensures TempLabelOffset(line, k * height) == k * TempLabelOffset(line, height)
  {
  }

  /** The freezing line (line 0) is at 10/11 of the height, strictly inside the canvas. */
  lemma FreezingLineInside(height: real)
    requires height > 0.0
    ensures TempLabelOffset(0, height) == 10.0 * height / 11.0
    ensures 0.0 < TempLabelOffset(0, height) < height
  {
  }

  /** The first-of-month markers move strictly right through the year. */
  lemma OffsetFirstOfMonthIncreasing(m1: int, m2: int, width: real)
    requires 1 <= m1 < m2 <= 12 && width > 0.0
    ensures OffsetFirstOfMonth(m1, width) < OffsetFirstOfMonth(m2, width)
  {
    FirstOrdinalMonotone(m1, m2);
    var gap := (FirstOrdinalOfMonth(m2) - FirstOrdinalOfMonth(m1)) as real;
    assert gap * width > 0.0;
  }

  /** January starts one day width in and December at day 335. */
  lemma OffsetFirstOfMonthEnds(width: real)
    ensures OffsetFirstOfMonth(1, width) == width / 365.0
    ensures OffsetFirstOfMonth(12, width) == 335.0 * width / 365.0
  {
  }

  /** Stretching the canvas stretches every month marker by the same factor. */
  lemma OffsetFirstOfMonthScales(month: int, width: real, k: real)
    requires 1 <= month <= 12
    ensures OffsetFirstOfMonth(month, k * width) == k * OffsetFirstOfMonth(month, width)
  {
  }

  // ---------------------------------------------------------------------
  // Geometry of the body

  /** The path drawn for one day. */
  datatype Segment = Segment(from: Point, to: Point)

  /** One day's segment: at the day's x, from the low temperature up to the high one. */
  function DaySegment(m: DayInfo, size: Size): (s: Segment)
    ensures s.from.x == s.to.x == DayOffset(m.date, DayWidth(size.width, DaysInYear))
  {
    var dayWidth := DayWidth(size.width, DaysInYear);
    var degreeHeight := DegreeHeight(size.height, TemperatureRange);
    var dayOffset := DayOffset(m.date, dayWidth);
    var lowOffset := TempOffset(m.low, degreeHeight);
    var highOffset := TempOffset(m.high, degreeHeight);
    Segment(Point(dayOffset, size.height - lowOffset), Point(dayOffset, size.height - highOffset))
  }

  /**
    A segment is vertical, its length is the day's temperature spread at the
    chart's scale, and on a canvas of non-negative height, for a day whose low
    is at most its high, the high end is not below the low end.
   */
  lemma DaySegmentShape(m: DayInfo, size: Size)
    ensures var s := DaySegment(m, size);
      && s.from.x == s.to.x
      && s.from.y - s.to.y == (m.high - m.low) * size.height / 110.0
      && (m.low <= m.high && size.height >= 0.0 ==> s.to.y <= s.from.y)
      && s.from.y == size.height * (100.0 - m.low) / 110.0
      && s.to.y == size.height * (100.0 - m.high) / 110.0
  {
    TemperatureY(m.low, size.height);
    TemperatureY(m.high, size.height);
    var d := m.high - m.low;
    if m.low <= m.high && size.height >= 0.0 {
      assert d * size.height >= 0.0;
    }
  }

  /** One segment per record, in the order of the records. */
  function Segments(ms: seq<DayInfo>, size: Size): (r: seq<Segment>)
    ensures |r| == |ms|
    ensures forall k :: 0 <= k < |ms| ==> r[k] == DaySegment(ms[k], size)
  {
    seq(|ms|, k requires 0 <= k < |ms| => DaySegment(ms[k], size))
  }

  /** The label `line * 10` degrees and where it is drawn. */
  datatype Label = Label(degrees: int, offset: Point)

  /** A horizontal gridline across the canvas, maybe emphasised and maybe labelled. */
  datatype Gridline = Gridline(line: int, from: Point, to: Point, emphasised: bool, caption: Option<Label>)

  function MakeGridline(line: int, size: Size): Gridline
  {
    var y := TempLabelOffset(line, size.height);
    Gridline(
      line,
      Point(0.0, y),
      Point(size.width, y),
      line == 0,
      if line >= 0 then Some(Label(line * 10, Point(GridLabelX, y))) else None)
  }

  /** The gridlines of the chart, for lines -1 up to 10. */
  function Gridlines(size: Size): (r: seq<Gridline>)
    ensures |r| == 12
    ensures forall k :: 0 <= k < 12 ==> r[k].line == k - 1
    ensures forall k :: 0 <= k < 12 ==> r[k].from.y == r[k].to.y == TempLabelOffset(k - 1, size.height)
    ensures forall k :: 0 <= k < 12 ==> r[k].from.x == 0.0 && r[k].to.x == size.width
    ensures forall k :: 0 <= k < 12 ==> (r[k].emphasised <==> k == 1)
    ensures forall k :: 0 <= k < 12 ==> (r[k].caption.Some? <==> k >= 1)
    ensures forall k :: 1 <= k < 12 ==> r[k].caption == Some(Label((k - 1) * 10, Point(GridLabelX, r[k].from.y)))
  {
    seq(12, k => MakeGridline(k - 1, size))
  }

  /**
    Exactly one gridline is emphasised, the freezing line, and on a canvas of
    positive height it sits strictly inside.
   */
  lemma OneEmphasisedGridline(size: Size)
    ensures var r := Gridlines(size);
      && r[1].emphasised && r[1].line == 0
      && r[1].from.y == 10.0 * size.height / 11.0
      && (size.height > 0.0 ==> 0.0 < r[1].from.y < size.height)
      && forall k :: 0 <= k < |r| && r[k].emphasised ==> k == 1
  {
    if size.height > 0.0 {
      FreezingLineInside(size.height);
    }
  }

  /**
    Gridlines are listed from the bottom edge to the top edge, and on a canvas
    of positive height every one lies strictly above the last.
   */
  lemma GridlinesBottomToTop(size: Size)
    ensures var r := Gridlines(size);
      && r[0].from.y == size.height
      && r[11].from.y == 0.0
      && (size.height > 0.0 ==> forall i, j :: 0 <= i < j < 12 ==> r[j].from.y < r[i].from.y)
  {
    var r := Gridlines(size);
    if size.height > 0.0 {
      forall i, j | 0 <= i < j < 12
        ensures r[j].from.y < r[i].from.y
      {
        TempLabelOffsetOrder(i - 1, j - 1, size.height);
      }
    }
  }

  /** A vertical line at the first of a month and the month's abbreviated name. */
  datatype MonthMarker = MonthMarker(month: int, from: Point, to: Point, name: string, labelOffset: Point)

  /**
    The abbreviated name of `month` from the calendar's twelve short month
    symbols, which are locale data outside this model.
   */
  function MonthAbbreviation(monthSymbols: seq<string>, month: int): string
    requires |monthSymbols| == 12 && 1 <= month <= 12
  {
    monthSymbols[month - 1]
  }

  function MakeMonthMarker(month: int, size: Size, monthSymbols: seq<string>): MonthMarker
    requires |monthSymbols| == 12 && 1 <= month <= 12
  {
    var dOffset := OffsetFirstOfMonth(month, size.width);
    MonthMarker(
      month,
      Point(dOffset, size.height),
      Point(dOffset, 0.0),
      MonthAbbreviation(monthSymbols, month),
      Point(
        OffsetFirstOfMonth(month, size.width) + MonthLabelDays * DayWidth(size.width, DaysInYear),
        size.height - MonthLabelRise))
  }

  /** The month markers of the chart, for months 1 up to 12. */
  function MonthMarkers(size: Size, monthSymbols: seq<string>): (r: seq<MonthMarker>)
    requires |monthSymbols| == 12
    ensures |r| == 12
    ensures forall k :: 0 <= k < 12 ==> r[k].month == k + 1 && r[k].name == monthSymbols[k]
  {
    seq(12, k requires 0 <= k < 12 => MakeMonthMarker(k + 1, size, monthSymbols))
  }

  /**
    Each marker spans the full height at the x of its month's first day, and
    its label sits five day widths to the right and 25 points above the
    bottom; on a canvas of positive width the markers move strictly right,
    staying inside the canvas.
   */
  lemma MonthMarkersLayout(size: Size, monthSymbols: seq<string>)
    requires |monthSymbols| == 12
    ensures var r := MonthMarkers(size, monthSymbols);
      && (forall k :: 0 <= k < 12 ==>
          && r[k].from.x == r[k].to.x == FirstOrdinalOfMonth(k + 1) as real * size.width / 365.0
          && r[k].from.y == size.height && r[k].to.y == 0.0
          && r[k].labelOffset.x == r[k].from.x + 5.0 * (size.width / 365.0)
          && r[k].labelOffset.y == size.height - 25.0
          && (size.width > 0.0 ==> 0.0 < r[k].from.x < size.width))
      && (size.width > 0.0 ==> forall i, j :: 0 <= i < j < 12 ==> r[i].from.x < r[j].from.x)
  {
    var r := MonthMarkers(size, monthSymbols);
    if size.width > 0.0 {
      forall i, j | 0 <= i < j < 12
        ensures r[i].from.x < r[j].from.x
      {
        OffsetFirstOfMonthIncreasing(i + 1, j + 1, size.width);
      }
    }
  }

  /** Everything one chart body draws. */
  datatype ChartLayout = ChartLayout(segments: seq<Segment>, gridlines: seq<Gridline>, markers: seq<MonthMarker>)

  /** The chart of the widget-family version, whose gridlines and month names can be switched off. */
  datatype SwitchableChart = SwitchableChart(measurements: seq<DayInfo>, renderDegrees: bool, renderMonthNames: bool)

  /** `init(measurements:)`: both gridlines and month names are drawn. */
  function DefaultChart(ms: seq<DayInfo>): (c: SwitchableChart)
    ensures c.measurements == ms && c.renderDegrees && c.renderMonthNames
  {
    SwitchableChart(ms, true, true)
  }

  /** `body` of the widget-family version. */
  function Body05(chart: SwitchableChart, size: Size, monthSymbols: seq<string>): (layout: ChartLayout)
    requires |monthSymbols| == 12
    ensures |layout.segments| == |chart.measurements|
    ensures |layout.gridlines| == (if chart.renderDegrees then 12 else 0)
    ensures |layout.markers| == (if chart.renderMonthNames then 12 else 0)
  {
    ChartLayout(
      Segments(chart.measurements, size),
      if chart.renderDegrees then Gridlines(size) else [],
      if chart.renderMonthNames then MonthMarkers(size, monthSymbols) else [])
  }

  /** `body` of the widgets version, which always draws gridlines and month markers. */
  function Body04(ms: seq<DayInfo>, size: Size, monthSymbols: seq<string>): (layout: ChartLayout)
    requires |monthSymbols| == 12
    ensures |layout.segments| == |ms| && |layout.gridlines| == 12 && |layout.markers| == 12
  {
    ChartLayout(Segments(ms, size), Gridlines(size), MonthMarkers(size, monthSymbols))
  }

  /** The two versions draw the same chart when the newer one keeps its defaults. */
  lemma VersionsAgree(ms: seq<DayInfo>, size: Size, monthSymbols: seq<string>)
    requires |monthSymbols| == 12
    ensures Body04(ms, size, monthSymbols) == Body05(DefaultChart(ms), size, monthSymbols)
  {
  }
}

=== FILE: text.dfy ===
/**
  The string operations the station loader relies on: splitting the CSV text
  into lines (`enumerateLines`), each line into columns
  (`components(separatedBy: ",")`), and the two `replacingOccurrences` calls
  that clean a station name.
 */
module Text {

  /** Number of occurrences of `c` in `s`. */
  function Count(s: string, c: char): (n: nat)
    ensures n <= |s|
    ensures n == 0 <==> c !in s
  {
    if |s| == 0 then 0 else (if s[0] == c then 1 else 0) + Count(s[1..], c)
  }

  lemma {:induction false} CountAppend(a: string, b: string, c: char)
    ensures Count(a + b, c) == Count(a, c) + Count(b, c)
  {
    if |a| == 0 {
      assert a + b == b;
    } else {
      assert (a + b)[1..] == a[1..] + b;
      CountAppend(a[1..], b, c);
    }
  }

  // ---------------------------------------------------------------------
  // Columns

  /** The pieces joined back together with `sep` between consecutive ones. */
  function Join(parts: seq<string>, sep: char): string
    requires |parts| >= 1
    decreases |parts|
  {
    if |parts| == 1 then parts[0] else parts[0] + [sep] + Join(parts[1..], sep)
  }

  /**
    `s.components(separatedBy: sep)`: the maximal separator-free pieces of `s`.
    There is always one more piece than separators, so the empty string gives
    one empty piece and a trailing separator gives a trailing empty piece.
   */
  function Split(s: string, sep: char): (parts: seq<string>)
    ensures |parts| == Count(s, sep) + 1
    ensures forall k :: 0 <= k < |parts| ==> sep !in parts[k]
    decreases |s|
  {
    if |s| == 0 then [""]
    else
      var rest := Split(s[1..], sep);
      if s[0] == sep then
        [""] + rest
      else
        var parts := [[s[0]] + rest[0]] + rest[1..];
        assert forall k :: 1 <= k < |parts| ==> parts[k] == rest[k];
        parts
  }

  /** Joining the pieces with the separator gives back the text. */
  lemma {:induction false} JoinSplit(s: string, sep: char)
    ensures Join(Split(s, sep), sep) == s
    decreases |s|
  {
    if |s| > 0 {
      var rest := s[1..];
      assert s == [s[0]] + rest;
      SplitCons(s[0], rest, sep);
      JoinSplit(rest, sep);
      var tail := Split(rest, sep);
      if s[0] != sep {
        var parts := [[s[0]] + tail[0]] + tail[1..];
        assert parts[1..] == tail[1..];
        if |tail| > 1 {
          assert Join(tail, sep) == tail[0] + [sep] + Join(tail[1..], sep);
        }
      }
    }
  }

  /** Splitting undoes joining: the pieces are recovered exactly when none contains the separator. */
  lemma {:induction false} SplitJoin(parts: seq<string>, sep: char)
    requires |parts| >= 1
    requires forall k :: 0 <= k < |parts| ==> sep !in parts[k]
    ensures Split(Join(parts, sep), sep) == parts
    decreases |parts|, |parts[0]|
  {
    if |parts| == 1 {
      SplitNoSeparator(parts[0], sep);
    } else if |parts[0]| == 0 {
      SplitJoin(parts[1..], sep);
      SplitJoinEmptyHead(parts, sep);
    } else {
      var head := parts[0];
      var shorter := [head[1..]] + parts[1..];
      assert sep !in head[1..] by { assert forall x :: x in head[1..] ==> x in head; }
      assert forall k :: 1 <= k < |shorter| ==> shorter[k] == parts[k];
      SplitJoin(shorter, sep);
      SplitJoinLongHead(parts, sep);
    }
  }

  lemma SplitJoinEmptyHead(parts: seq<string>, sep: char)
    requires |parts| >= 2 && parts[0] == ""
    requires Split(Join(parts[1..], sep), sep) == parts[1..]
    ensures Split(Join(parts, sep), sep) == parts
  {
    var tail := Join(parts[1..], sep);
    assert Join(parts, sep) == [sep] + tail;
    SplitCons(sep, tail, sep);
    assert parts == [""] + parts[1..];
  }

  lemma SplitJoinLongHead(parts: seq<string>, sep: char)
    requires |parts| >= 2 && |parts[0]| > 0 && parts[0][0] != sep
    requires Split(Join([parts[0][1..]] + parts[1..], sep), sep) == [parts[0][1..]] + parts[1..]
    ensures Split(Join(parts, sep), sep) == parts
  {
    var head := parts[0];
    var shorter := [head[1..]] + parts[1..];
    assert shorter[1..] == parts[1..];
    assert Join(parts, sep) == [head[0]] + Join(shorter, sep);
    SplitCons(head[0], Join(shorter, sep), sep);
    assert [head[0]] + head[1..] == head;
    assert parts == [head] + parts[1..];
  }

  /** One step of `Split` on a text with a known first character. */
  lemma SplitCons(c: char, s: string, sep: char)
    ensures Split([c] + s, sep) == if c == sep then [""] + Split(s, sep)
      else [[c] + Split(s, sep)[0]] + Split(s, sep)[1..]
  {
    assert ([c] + s)[1..] == s;
  }

  lemma {:induction false} SplitNoSeparator(s: string, sep: char)
    requires sep !in s
    ensures Split(s, sep) == [s]
    decreases |s|
  {
    if |s| > 0 {
      assert sep !in s[1..] by { assert forall x :: x in s[1..] ==> x in s; }
      SplitNoSeparator(s[1..], sep);
      assert s == [s[0]] + s[1..];
    }
  }

  // ---------------------------------------------------------------------
  // Lines

  const Newline: char := '\n'

  /**
    `enumerateLines`: the text cut at each newline; a newline that ends the
    text does not start one more, empty, line, so the empty text has no lines.
   */
  function Lines(text: string): (lines: seq<string>)
    ensures forall k :: 0 <= k < |lines| ==> Newline !in lines[k]
    ensures |lines| == Count(text, Newline) + (if |text| == 0 || text[|text| - 1] == Newline then 0 else 1)
  {
    var parts := Split(text, Newline);
    if parts[|parts| - 1] == "" then
      LastPieceEmpty(text, Newline);
      parts[..|parts| - 1]
    else
      LastPieceEmpty(text, Newline);
      parts
  }

  /** The last piece of a split is empty exactly when the text is empty or ends with the separator. */
  lemma {:induction false} LastPieceEmpty(s: string, sep: char)
    ensures var parts := Split(s, sep);
      parts[|parts| - 1] == "" <==> (|s| == 0 || s[|s| - 1] == sep)
    decreases |s|
  {
    if |s| > 0 {
      var rest := s[1..];
      assert s == [s[0]] + rest;
      SplitCons(s[0], rest, sep);
      LastPieceEmpty(rest, sep);
      var tail := Split(rest, sep);
      if s[0] != sep && |tail| == 1 {
        assert Count(rest, sep) == 0;
        if |rest| > 0 {
          assert rest[|rest| - 1] in rest;
        }
      }
    }
  }

  /** Every line written out followed by a newline. */
  function Unlines(lines: seq<string>): string
  {
    if |lines| == 0 then [] else Unlines(lines[..|lines| - 1]) + lines[|lines| - 1] + [Newline]
  }

  lemma {:induction false} UnlinesJoin(parts: seq<string>)
    requires |parts| >= 1
    ensures Unlines(parts[..|parts| - 1]) + parts[|parts| - 1] == Join(parts, Newline)
    decreases |parts|
  {
    if |parts| > 1 {
      var tail := parts[1..];
      UnlinesJoin(tail);
      UnlinesCons(parts[0], tail[..|tail| - 1]);
      assert [parts[0]] + tail[..|tail| - 1] == parts[..|parts| - 1];
    }
  }

  lemma {:induction false} UnlinesCons(line: string, lines: seq<string>)
    ensures Unlines([line] + lines) == line + [Newline] + Unlines(lines)
    decreases |lines|
  {
    if |lines| > 0 {
      var init := lines[..|lines| - 1];
      assert ([line] + lines)[..|lines|] == [line] + init;
      UnlinesCons(line, init);
    }
  }

  /** Writing the lines back out reproduces the text, with a final newline added when it had none. */
  lemma LinesRoundTrip(text: string)
    ensures Unlines(Lines(text)) == if |text| == 0 || text[|text| - 1] == Newline then text else text + [Newline]
  {
    var parts := Split(text, Newline);
    JoinSplit(text, Newline);
    UnlinesJoin(parts);
    LastPieceEmpty(text, Newline);
    if parts[|parts| - 1] != "" {
      var lines := parts;
      assert lines[..|lines|] == lines;
      assert Unlines(lines) == Unlines(lines[..|lines| - 1]) + lines[|lines| - 1] + [Newline];
    } else {
      assert Unlines(parts[..|parts| - 1]) + "" == text;
    }
  }

  // ---------------------------------------------------------------------
  // Name cleanup

  /** `replacingOccurrences(of: [c], with: "")`. */
  function RemoveAll(s: string, c: char): (r: string)
    ensures c !in r
    ensures |r| == |s| - Count(s, c)
    ensures forall x :: x != c ==> Count(r, x) == Count(s, x)
  {
    if |s| == 0 then []
    else
      var rest := RemoveAll(s[1..], c);
      if s[0] == c then rest else [s[0]] + rest
  }

  /** One character is removed when it is `c` and kept otherwise. */
  lemma RemoveAllSingle(x: char, c: char)
    ensures RemoveAll([x], c) == if x == c then [] else [x]
  {
    assert [x][1..] == [];
  }

  /** Removal works position by position: the kept characters stay in their order. */
  lemma {:induction false} RemoveAllAppend(a: string, b: string, c: char)
    ensures RemoveAll(a + b, c) == RemoveAll(a, c) + RemoveAll(b, c)
    decreases |a|
  {
    if |a| == 0 {
      assert a + b == b;
    } else {
      assert (a + b)[0] == a[0];
      assert (a + b)[1..] == a[1..] + b;
      RemoveAllAppend(a[1..], b, c);
    }
  }

  /** Removing a character that does not occur changes nothing. */
  lemma {:induction false} RemoveAllAbsent(s: string, c: char)
    requires c !in s
    ensures RemoveAll(s, c) == s
  {
    if |s| > 0 {
      assert c !in s[1..];
      RemoveAllAbsent(s[1..], c);
      assert [s[0]] + s[1..] == s;
    }
  }

  /** `replacingOccurrences(of: [a], with: [b])` for single characters. */
  function ReplaceAll(s: string, a: char, b: char): (r: string)
    requires a != b
    ensures |r| == |s|
    ensures a !in r
    ensures Count(r, b) == Count(s, b) + Count(s, a)
    ensures forall x :: x != a && x != b ==> Count(r, x) == Count(s, x)
  {
    if |s| == 0 then []
    else
      var rest := ReplaceAll(s[1..], a, b);
      [if s[0] == a then b else s[0]] + rest
  }

  /** Replacing a character that does not occur changes nothing. */
  lemma {:induction false} ReplaceAllAbsent(s: string, a: char, b: char)
    requires a != b && a !in s
    ensures ReplaceAll(s, a, b) == s
  {
    if |s| > 0 {
      assert a !in s[1..];
      ReplaceAllAbsent(s[1..], a, b);
      assert [s[0]] + s[1..] == s;
    }
  }

  /** Replacement is positional: it touches no character but the replaced one. */
  lemma {:induction false} ReplaceAllPointwise(s: string, a: char, b: char, i: int)
    requires a != b
    requires 0 <= i < |s|
    ensures ReplaceAll(s, a, b)[i] == if s[i] == a then b else s[i]
    decreases |s|
  {
    if i > 0 {
      ReplaceAllPointwise(s[1..], a, b, i - 1);
    }
  }
}
